=== FILE: README.md ===
# RFQ collaborative editing: control layer

A Dafny model of the control layer of the RFQ (request-for-quote) system.
In that system internal users of several tenant companies edit shared
projects, and external suppliers answer through single-use tokens. The model
covers five parts:

- **Project mutation guard** (`Pipeline`, `Versioning`, `Locks`, `Audit`).
  A project write passes these checks in a fixed order: authentication
  against the live session store, tenant scope, advisory locks, then the
  optimistic version check. Each project carries a version stamp that every
  accepted write advances. A stale `base_version` is refused with a version
  conflict. A live lock that another user holds on any key tied to the
  project is refused with a lock conflict. Both conflicts carry the
  canonical project. A refused request leaves the server state unchanged.
  Force-unlock by an administrator always appends a `lock.force_unlock`
  audit entry.
- **Supplier workflow** (`Supplier`, `Pipeline.*At`). The access states are
  `sent`, `viewed`, `submitted` and `approved`. Draft save, submit, approve
  and reopen request are modelled. On approval, the supplier, the price and
  the `Quoted` marker are copied into the matching project items.
- **Tenant scoping** (`Tenancy`). A static role/capability table and the
  company-match rule. Export is refused with exactly the out-of-scope ids.
  File downloads are scoped to the file's company.
- **Client bootstrap overlay** (`Overlay`). A browser tab decides here
  whether a locally pending draft may override the server's canonical copy.
- **Company/profile backfill** (`Backfill`). The one-shot data migration
  `0008`: every tenant-owned row gets a company, and every user gets a
  profile.

Each request is one pure function from a `Server` state to the next state
and a reply (`Pipeline.Step`). The implementation's views, models and
client script are not part of this model. For those parts, the model
follows what the repository's tests state about observable behaviour. The
migration is modelled from its code.

Where the documented behaviour of the system and its tests disagree, the
model follows the tests:

- A write is blocked by a live lock of another user on *any* resource key
  tied to the project. In `rfq/tests/test_session_lock_hotfix.py` an
  item-detail key blocks a bulk write. The documented behaviour is that
  only the key the write declares is enforced.
- `approve` is authenticated by the supplier token alone.
  `rfq/tests/test_supplier_flow.py` approves without logging in. The
  documented behaviour is an internal, session-authenticated call.
- `request_reopen` is addressed by the access id, which is the token. In
  `rfq/tests/test_security_hotfixes.py` it succeeds without a session.

Modelling choices:

- Version stamps are natural-number counters compared for equality.
- A write without a `base_version` never matches the current version.
- Company ids are positive. This matches database auto-increment keys, so
  Python's falsiness of `company_id` coincides with "absent".
- Project ids and access tokens are strings. The migration follows a parent
  key only when it is truthy, so an empty key counts as absent there
  (`Backfill.Present`).
- Profiles are keyed by user: one profile per user.
- `save_draft` and `submit` are allowed only while the quote is `sent` or
  `viewed`. `approve` is allowed only from `submitted`.
- An unknown token or project id gives `NotFound`.

## Model

| member | source | states |
|---|---|---|
| Tenancy.DeniedIds | rfq/tests/test_security_hotfixes.py:29-36 | an id is in the denial list iff it was requested and the caller cannot read it (missing or another company's) |
| Tenancy.Export | rfq/tests/test_security_hotfixes.py:29-36 | export is refused iff some requested id is out of scope, and the refusal is the denial list itself (`DeniedIds`: exactly those ids); otherwise every requested project is returned in order |
| Tenancy.AllForeignDeniedVerbatim | rfq/tests/test_security_hotfixes.py:29-36 | when every requested id is out of scope, the denial list equals the request |
| Tenancy.ForeignExportRefused | rfq/tests/test_security_hotfixes.py:29-36 | an admin of one company exporting another company's project gets 403 with `denied_project_ids` = that one id |
| Locks.Acquire | rfq/tests/test_session_lock_hotfix.py:57-64 | acquisition fails iff another holder has a live lock on the key (reporting that lock); otherwise the key is held by the caller for the given project and context and no other key changes |
| Locks.ForceRelease | rfq/tests/test_session_lock_hotfix.py:88-95 | force-unlock removes the key's lock whoever holds it and touches no other key |
| Locks.AcquiredLockBlocksOthers | rfq/tests/test_session_lock_hotfix.py:57-72 | a lock just taken on any key tied to a project blocks every other user's write to that project until it expires |
| Locks.AcquireNeverBlocksHolder | rfq/tests/test_project_version_conflict.py:29-50 | taking a lock never makes one's own write blocked |
| Audit.Append | rfq/tests/test_session_lock_hotfix.py:97-99 | the audit log only grows: old entries stay in place and the new entry is last |
| Versioning.Apply | rfq/tests/test_project_version_conflict.py:39-61 | an accepted write replaces name and items, keeps id and company, advances the version, and so invalidates the base version it presented |
| Pipeline.Identify | rfq/tests/test_session_lock_hotfix.py:35-49 | a request is authenticated only through a session still in the live session store |
| Pipeline.Logout | rfq/tests/test_session_lock_hotfix.py:43-45 | logout removes exactly that session, for every tab sharing the cookie, and nothing else |
| Pipeline.LogoutRevokesSession | rfq/tests/test_session_lock_hotfix.py:35-49 | after logout, single writes, bulk writes, lock acquisition and force-unlock with that session all get 401, whatever the payload |
| Pipeline.CheckEdit | rfq/tests/test_project_version_conflict.py:39-65 | an edit passes iff the project exists, the caller may write it, no foreign lock blocks it and the base version is current; an unknown project is 404 and an out-of-scope writer gets `Forbidden` naming only that id, before locks or versions are looked at; when in scope, a blocking lock yields `lock_conflict` with the canonical project before the version is looked at; an in-scope, unblocked edit with a stale base is exactly `version_conflict` carrying the canonical project and its current version |
| Pipeline.Put | rfq/tests/test_project_version_conflict.py:39-65 | a PUT succeeds iff authentication and every edit check pass; it then stores exactly the edited project (new name/items, same id and company, strictly greater version) and changes nothing else; without a live session the reply is the authentication failure, and otherwise a refusal is exactly the edit check's failure; a refused PUT changes nothing |
| Pipeline.StalePutRefused | rfq/tests/test_project_version_conflict.py:52-65 | after a committed write, any second write with the same base version is refused, leaves the first write persisted, and for the same caller is exactly `version_conflict` with the canonical project and its version |
| Pipeline.ApplyAll | rfq/tests/test_project_version_conflict.py:67-95 | a batch is accepted only when every edit is in the caller's scope and unblocked by other users' locks and each project's first edit presents its current version; it then keeps the set of projects, advances every edited project's version, keeps every project's id and company, stores for each edited project the name and items of its last edit, and leaves every unedited project as it was |
| Pipeline.Bulk | rfq/tests/test_project_version_conflict.py:67-95 | a refused bulk write changes nothing; without a live session the reply is the authentication failure whatever the payload; an accepted one had every edit in scope, unblocked and (for each project's first edit) current, keeps every project's id and company, advances every edited project's version and stores the name and items of each project's last edit |
| Pipeline.BulkRefusesUnadmittedEdit | rfq/tests/test_session_lock_hotfix.py:66-75 | a batch with an out-of-scope or foreign-locked edit in any position is refused as a whole and changes nothing |
| Pipeline.BulkOfOneIsPut | rfq/tests/test_project_version_conflict.py:67-95 | a one-project batch has exactly the effect and the refusal of the single-project PUT |
| Pipeline.StaleBulkRefused | rfq/tests/test_project_version_conflict.py:67-95 | after an accepted batch, a batch reusing its base version is refused, the persisted project keeps the first batch's name, and for the same caller the code is `version_conflict` |
| Pipeline.ForeignLockBlocksWrites | rfq/tests/test_session_lock_hotfix.py:51-75 | after user A locks any key of project P, an authorized write to P by user B, single or bulk, is `lock_conflict` for P with the canonical project and changes nothing |
| Pipeline.OwnLockKeepsWriteOpen | rfq/tests/test_project_version_conflict.py:29-50 | a write that would be accepted is still accepted after its author acquires a lock |
| Pipeline.AcquireLock | rfq/tests/test_session_lock_hotfix.py:57-64 | for an authenticated caller, acquisition succeeds with `acquired = true` iff the named project (if any) exists and is in the caller's scope and no one else holds the key live; someone else's live lock is refused as `LockHeld` with that lock and the canonical project; an unknown project is 404 and a project outside the caller's scope is 403 naming it, before any lock is looked at; any refusal changes nothing; without a session the reply is the authentication failure |
| Pipeline.ForceUnlock | rfq/tests/test_session_lock_hotfix.py:77-99 | for an authenticated caller, force-unlock succeeds iff the caller is an active admin-or-above and the key is free or its lock's company is in the caller's scope, otherwise 403; success clears the key whoever held it and leaves every other lock as it was, replies `forced = true` and appends exactly one `lock.force_unlock` entry for the key and actor |
| Pipeline.AdminForceUnlocksOwnCompanyLock | rfq/tests/test_session_lock_hotfix.py:77-99 | an admin can force open a lock that anyone (a colleague or the admin) took on a project of the admin's company, and the audit log gains exactly that entry |
| Pipeline.ExportProjects | rfq/tests/test_security_hotfixes.py:29-36 | export never changes state; it is refused iff some id is out of the caller's scope, and `denied_project_ids` is exactly the denial list `Tenancy.DeniedIds` of the request |
| Pipeline.DownloadFile | rfq/tests/test_security_hotfixes.py:38-62 | a file is served iff the caller is authenticated and authorized for the file's company; a non-superadmin (admins included) of another company gets 403 |
| Supplier.SaveDraft | rfq/tests/test_supplier_flow.py:42-56 | a draft save succeeds iff the quote is open, moves it to `viewed`, stores the lines with the draft marker and changes nothing else |
| Supplier.Submit | rfq/tests/test_supplier_flow.py:58-71 | submission succeeds iff the quote is open, moves it to `submitted`, stamps `submitted_at`, and changes nothing else |
| Supplier.Approve | rfq/tests/test_supplier_flow.py:87-98 | approval succeeds iff the quote is `submitted` and only moves it to `approved` |
| Supplier.RequestReopen | rfq/tests/test_security_hotfixes.py:64-85 | a reopen request sets the `reopen_requested` marker and changes nothing else, for every status and submission |
| Supplier.PriceFor | rfq/tests/test_supplier_flow.py:100-106 | finds the price of the first submitted line for an item id, or reports that no line names it |
| Supplier.Quoted | rfq/tests/test_supplier_flow.py:100-106 | a quoted item has `supplier`, `price_1` and `status = Quoted` set and every other field unchanged |
| Supplier.Propagate | rfq/tests/test_supplier_flow.py:100-106 | approval propagation keeps the item count and order; every item named by a submitted line is quoted with that line's price; every other item is untouched |
| Pipeline.SaveDraftAt | rfq/tests/test_supplier_flow.py:42-56 | by token: unknown token is 404, a closed quote is a defined 403 that changes nothing, otherwise the draft is stored |
| Pipeline.SubmitAt | rfq/tests/test_supplier_flow.py:108-116 | by token: submitting a closed (approved) quote is a defined 403 that changes nothing; an open quote is submitted |
| Pipeline.WithQuote | rfq/tests/test_supplier_flow.py:100-106 | the owning project after approval: items propagated, name and owner kept, version advanced |
| Pipeline.ApproveAt | rfq/tests/test_supplier_flow.py:73-106 | approval replies `ok` iff the quote is submitted; the access becomes `approved` and the owning project's items are propagated; nothing else changes |
| Pipeline.SubmitThenApprove | rfq/tests/test_supplier_flow.py:73-106 | submitting then approving an open quote leaves it approved with its submission time, and the project's items quoted from exactly the submitted lines, with the same item count |
| Pipeline.ApproveOnce | rfq/tests/test_supplier_flow.py:87-116 | once approved, a quote is closed: approving it again is the 403 refusal of a closed quote and changes nothing, so prices are copied into the project once |
| Pipeline.StatusCode | rfq/tests/test_session_lock_hotfix.py:49-68 | failures map to the HTTP codes the tests check: 401 exactly for missing authentication, 409 exactly for lock and version conflicts, 403 for scope refusals and closed quotes, and never 500 |
| Pipeline.RequestReopenAt | rfq/tests/test_security_hotfixes.py:64-85 | a reopen request on any known token succeeds (never a fault) and only sets the marker on that access: its status, lines, project, company and times are kept, and no other access is touched |
| Overlay.Adopted | rfq/tests/test_rfq_stale_overlay_regression.js:136-145 | a project takes its draft's items only when the guard holds, and otherwise is the server's copy |
| Overlay.AdoptAll | rfq/tests/test_rfq_stale_overlay_regression.js:124-145 | the adopted list is the server list, position by position, overlaid only where the guard holds |
| Overlay.Bootstrap | rfq/tests/test_rfq_stale_overlay_regression.js:124-134 | bootstrap replaces the local copy by the adopted server list; with an empty queue it drops the drafts of the server's projects, otherwise it keeps them |
| Overlay.EmptyQueueAdoptsServer | rfq/tests/test_rfq_stale_overlay_regression.js:124-134 | with an empty sync queue the tab holds exactly the server's projects and no draft of them remains |
| Overlay.TabsConverge | rfq/tests/test_rfq_stale_overlay_regression.js:97-132 | two tabs with different stale copies and drafts converge on the server's projects when their queues are empty |
| Overlay.StaleDraftNeverApplies | rfq/tests/test_rfq_stale_overlay_regression.js:101-131 | a draft based on another version never overrides the server copy, even in the same session scope |
| Overlay.DraftAppliesExactly | rfq/tests/test_rfq_stale_overlay_regression.js:136-145 | a differing draft decides the items iff scope matches, base version equals the server's and the queue is non-empty |
| Backfill.Matching | rfq/migrations/0008_backfill_company_and_profiles.py:17 | lists exactly the companies that carry the looked-up name, each once and in ascending id order, so its length is the number of such companies |
| Backfill.DefaultCompany | rfq/migrations/0008_backfill_company_and_profiles.py:17 | get-or-create by name: reuses the single existing default company, creates an active one when none exists, fails when several exist; afterwards exactly one carries the name |
| Backfill.BackfillProjects | rfq/migrations/0008_backfill_company_and_profiles.py:19 | every project ends with a company; one that had a company is untouched, one without gets the default |
| Backfill.BackfillAttachments | rfq/migrations/0008_backfill_company_and_profiles.py:21-23 | an attachment without a company takes its project's company, or the default when its project key is missing or empty; others untouched; links kept |
| Backfill.BackfillAccesses | rfq/migrations/0008_backfill_company_and_profiles.py:25-27 | the same rule for supplier accesses |
| Backfill.BackfillRounds | rfq/migrations/0008_backfill_company_and_profiles.py:29-34 | a round without a company takes its access's company, falling back to the default when the access key is missing or empty or the access has no company; the result is never null |
| Backfill.BackfillFiles | rfq/migrations/0008_backfill_company_and_profiles.py:36-41 | the same rule for supplier-interaction files |
| Backfill.BackfillQuotes | rfq/migrations/0008_backfill_company_and_profiles.py:43-46 | a quote without a company takes its project's company, falling back to the default when the project key is missing or empty or the project has no company |
| Backfill.RepairProfile | rfq/migrations/0008_backfill_company_and_profiles.py:49-57 | an existing profile only gains the default company when it has none and is not superadmin; role and flags never change |
| Backfill.NewProfile | rfq/migrations/0008_backfill_company_and_profiles.py:59-67 | a missing profile is created active; superuser gives company-less superadmin, anyone else a viewer of the default company; management iff staff or superuser |
| Backfill.BackfillProfiles | rfq/migrations/0008_backfill_company_and_profiles.py:48-67 | users with a profile get it repaired, users without get a new one, profiles of other ids are untouched |
| Backfill.Forwards | rfq/migrations/0008_backfill_company_and_profiles.py:5-67 | the migration fails only on several default companies; otherwise it keeps the links and the set of rows, leaves no tenant-owned row without a company and no user without a profile |
| Backfill.PassEstablishes | rfq/migrations/0008_backfill_company_and_profiles.py:17-67 | the table-by-table pass establishes ownership of every row and a profile for every user |
| Backfill.ForwardsTouchesOnlyMissingCompanies | rfq/migrations/0008_backfill_company_and_profiles.py:19-57 | rows and profiles that already had a company are unchanged; a project differs at most in its company |
| Backfill.ForwardsInheritsThroughParents | rfq/migrations/0008_backfill_company_and_profiles.py:21-46 | children without a company end up with their (already backfilled) parent's company when the parent key is non-empty, and with the default company when it is missing or empty |
| Backfill.OwnedTablesAreFixed | rfq/migrations/0008_backfill_company_and_profiles.py:19-46 | every table pass is the identity on a table whose rows all have a company |
| Backfill.ProfiledIsFixed | rfq/migrations/0008_backfill_company_and_profiles.py:48-57 | the profile pass is the identity once every user has a scoped profile |
| Backfill.ForwardsIdempotent | rfq/migrations/0008_backfill_company_and_profiles.py:17-67 | running the migration a second time changes nothing |
| Backfill.Backwards | rfq/migrations/0008_backfill_company_and_profiles.py:70-72 | the rollback leaves the data as it is |

## Left out

- Login, passwords, cookies and the health endpoint. They are session plumbing. The live session store is a map from session ids to users, checked first on every request.
- Cross-tab live sync through storage events, timers and refetching. This is asynchronous browser I/O.
- The lock status display. It passes the server's reply through unchanged.
- Database transactions and parallel requests. Each request is one atomic step from one state to the next.
- Real timestamps. The clock is a `now` parameter and lock expiry is `now < expiresAt`. `submitted_at` is the `now` of the submit request. Version stamps are counters.
- Float parsing of prices. Prices are the supplier's strings, copied through unchanged.
- File storage and contents, CSV formatting, JSON/HTTP encoding, Origin-header checks, the ORM and `localStorage` mechanics.
- The required-field validation of `submit` (the 400 path). Its rules are not stated anywhere this model draws on. Only its place after the closed-quote check matters, and the closed check is modelled.
- Propagation of lead time on approval. The target field name is not shown.
- The issuing of new access tokens and the increment of round numbers.
- Creation of projects through the bulk endpoint. An edit to an unknown project id is refused with `NotFound`.
- Audit entries for ordinary project writes. No action name for them is shown. Force-unlock is audited.
- The reopen request's free-text reason. Only the `reopen_requested` marker is kept.
- Lock checks on the approval write. Approval advances the project's version like any write, but no lock can refuse it.
- Release of a lock (`Locks.Release`, `Pipeline.ReleaseLock`) follows the documented behaviour only: the holder's release removes the lock, anyone else's is a no-op. No test exercises it.
- Pipeline.ApplyAll: the contract states that versions advance, not by how much when a batch edits the same project twice. The one-edit batch is tied exactly to `Put` by `Pipeline.BulkOfOneIsPut`.
- Pipeline.Bulk: the whole batch is refused when one edit fails. This is the documented behaviour, but no test establishes all-or-nothing behaviour for batches of more than one project.

=== FILE: audit.dfy ===
/** AuditLog: an append-only record of privileged actions. Entries are
    created and never updated or removed. */
module Audit {
  import opened Domain

  datatype Entry = Entry(action: string, entityType: string, entityId: string, actor: UserId)

  type Log = seq<Entry>

  /** `later` keeps every entry of `earlier`, in place, and may add more. */
  predicate Extends(earlier: Log, later: Log)
  {
    |earlier| <= |later| && later[..|earlier|] == earlier
  }

  function Append(log: Log, e: Entry): (log': Log)
    ensures Extends(log, log')
    ensures |log'| == |log| + 1 && log'[|log|] == e
  {
    log + [e]
  }
}

=== FILE: backfill.dfy ===
/** The one-shot data migration that brings pre-tenant rows under a company:
    every tenant-owned row without a company receives one (through its
    parent, else the default company), and every user receives a profile. */
module Backfill {
  import opened Domain
  import Supplier

  const DefaultCompanyName := "Default Company"

  type RowId = nat

  /** The rows the migration reads and writes. Company `k` is
      `companies[k - 1]`, so ids are positive and assigned in order. */
  datatype Db = Db(
    companies: seq<Company>,
    projects: map<ProjectId, Project>,
    attachments: map<RowId, Attachment>,
    accesses: map<Supplier.Token, Supplier.Access>,
    rounds: map<RowId, Supplier.Round>,
    files: map<RowId, Supplier.InteractionFile>,
    quotes: map<RowId, Quote>,
    users: map<UserId, User>,
    profiles: map<UserId, Profile>)

  /** Foreign keys resolve: every parent a row names exists. */
  predicate Linked(db: Db)
  {
    && (forall k :: k in db.attachments && db.attachments[k].project.Some? ==> db.attachments[k].project.value in db.projects)
    && (forall t :: t in db.accesses && db.accesses[t].project.Some? ==> db.accesses[t].project.value in db.projects)
    && (forall k :: k in db.quotes && db.quotes[k].project.Some? ==> db.quotes[k].project.value in db.projects)
    && (forall k :: k in db.rounds && db.rounds[k].access.Some? ==> db.rounds[k].access.value in db.accesses)
    && (forall k :: k in db.files && db.files[k].access.Some? ==> db.files[k].access.value in db.accesses)
  }

  /** No tenant-owned row is left without a company. */
  predicate Owned(db: Db)
  {
    && (forall id :: id in db.projects ==> db.projects[id].company.Some?)
    && (forall k :: k in db.attachments ==> db.attachments[k].company.Some?)
    && (forall t :: t in db.accesses ==> db.accesses[t].company.Some?)
    && (forall k :: k in db.rounds ==> db.rounds[k].company.Some?)
    && (forall k :: k in db.files ==> db.files[k].company.Some?)
    && (forall k :: k in db.quotes ==> db.quotes[k].company.Some?)
  }

  /** Every user has a profile, and only a superadmin profile lacks a company. */
  predicate Profiled(db: Db)
  {
    forall u :: u in db.users ==> u in db.profiles && (db.profiles[u].company.Some? || db.profiles[u].role == Superadmin)
  }

  datatype MigrationError = MultipleDefaultCompanies

  /** A parent key the migration follows: set and non-empty, as Python's
      truthiness reads a string key (`if row.project_id`). */
  predicate Present(key: Option<string>)
  {
    key.Some? && key.value != ""
  }

  /** The ids of the companies called `name`, in ascending order. */
  function Matching(cs: seq<Company>, name: string): (ks: seq<CompanyId>)
    ensures forall i :: 0 <= i < |ks| ==> ks[i] <= |cs| && cs[ks[i] - 1].name == name
    ensures forall k: CompanyId :: k <= |cs| && cs[k - 1].name == name ==> k in ks
    ensures forall i, j :: 0 <= i < j < |ks| ==> ks[i] < ks[j]
  {
    if |cs| == 0 then []
    else
      var init := cs[..|cs| - 1];
      Matching(init, name) + (if cs[|cs| - 1].name == name then [|cs| as CompanyId] else [])
  }

  /** A company added at the end is matched after all earlier ones. */
  lemma MatchingAppend(cs: seq<Company>, c: Company, name: string)
    ensures Matching(cs + [c], name) == Matching(cs, name) + (if c.name == name then [(|cs| + 1) as CompanyId] else [])
  {
    assert (cs + [c])[..|cs|] == cs;
  }

  /** `get_or_create` of the default company by name: the existing one if
      there is exactly one, a new active one if there is none; two or more
      make the lookup fail. */
  function DefaultCompany(cs: seq<Company>): (r: Result<(seq<Company>, CompanyId), MigrationError>)
    ensures r.Err? <==> |Matching(cs, DefaultCompanyName)| > 1
    ensures r.Ok? ==> Matching(r.value.0, DefaultCompanyName) == [r.value.1]
    ensures r.Ok? ==> |cs| <= |r.value.0| && r.value.0[..|cs|] == cs
    ensures r.Ok? && |Matching(cs, DefaultCompanyName)| == 1 ==> r.value.0 == cs
    ensures r.Ok? && |Matching(cs, DefaultCompanyName)| == 0 ==>
              r.value.0 == cs + [Company(DefaultCompanyName, true)] && r.value.1 == |cs| + 1
  {
    var ks := Matching(cs, DefaultCompanyName);
    if |ks| == 0 then
      var cs' := cs + [Company(DefaultCompanyName, true)];
      MatchingAppend(cs, Company(DefaultCompanyName, true), DefaultCompanyName);
      assert cs'[..|cs|] == cs;
      Ok((cs', (|cs| + 1) as CompanyId))
    else if |ks| == 1 then
      assert cs[..|cs|] == cs;
      Ok((cs, ks[0]))
    else Err(MultipleDefaultCompanies)
  }

  /** `comp or default_company.id`. */
  function OrDefault(c: Option<CompanyId>, d: CompanyId): (r: Option<CompanyId>)
    ensures r.Some?
    ensures c.Some? ==> r == c
    ensures c.None? ==> r == Some(d)
  {
    if c.Some? then c else Some(d)
  }

  /** Projects without a company get the default company in one update. */
  function BackfillProjects(projects: map<ProjectId, Project>, d: CompanyId): (r: map<ProjectId, Project>)
    ensures r.Keys == projects.Keys
    ensures forall id :: id in r ==> r[id].company.Some?
    ensures forall id :: id in projects && projects[id].company.Some? ==> r[id] == projects[id]
    ensures forall id :: id in projects && projects[id].company.None? ==> r[id] == projects[id].(company := Some(d))
  {
    map id | id in projects :: if projects[id].company.None? then projects[id].(company := Some(d)) else projects[id]
  }

  /** An attachment takes its project's company, or the default company when
      its project key is missing or empty. */
  function BackfillAttachments(rows: map<RowId, Attachment>, projects: map<ProjectId, Project>, d: CompanyId): (r: map<RowId, Attachment>)
    requires forall k :: k in rows && rows[k].project.Some? ==> rows[k].project.value in projects
    ensures r.Keys == rows.Keys
    ensures forall k :: k in rows && rows[k].company.Some? ==> r[k] == rows[k]
    ensures forall k :: k in rows && rows[k].company.None? && Present(rows[k].project) ==>
              r[k] == rows[k].(company := projects[rows[k].project.value].company)
    ensures forall k :: k in rows && rows[k].company.None? && !Present(rows[k].project) ==> r[k] == rows[k].(company := Some(d))
    ensures forall k :: k in r ==> r[k].project == rows[k].project
    ensures (forall id :: id in projects ==> projects[id].company.Some?) ==> forall k :: k in r ==> r[k].company.Some?
  {
    map k | k in rows ::
      var a := rows[k];
      if a.company.Some? then a
      else a.(company := if Present(a.project) then projects[a.project.value].company else Some(d))
  }

  /** A supplier access takes its project's company, or the default company
      when its project key is missing or empty. */
  function BackfillAccesses(rows: map<Supplier.Token, Supplier.Access>, projects: map<ProjectId, Project>, d: CompanyId)
    : (r: map<Supplier.Token, Supplier.Access>)
    requires forall t :: t in rows && rows[t].project.Some? ==> rows[t].project.value in projects
    ensures r.Keys == rows.Keys
    ensures forall t :: t in rows && rows[t].company.Some? ==> r[t] == rows[t]
    ensures forall t :: t in rows && rows[t].company.None? && Present(rows[t].project) ==>
              r[t] == rows[t].(company := projects[rows[t].project.value].company)
    ensures forall t :: t in rows && rows[t].company.None? && !Present(rows[t].project) ==> r[t] == rows[t].(company := Some(d))
    ensures forall t :: t in r ==> r[t].project == rows[t].project
    ensures (forall id :: id in projects ==> projects[id].company.Some?) ==> forall t :: t in r ==> r[t].company.Some?
  {
    map t | t in rows ::
      var a := rows[t];
      if a.company.Some? then a
      else a.(company := if Present(a.project) then projects[a.project.value].company else Some(d))
  }

  /** A round takes its access's company, falling back to the default
      company when its access key is missing or empty or the access has none. */
  function BackfillRounds(rows: map<RowId, Supplier.Round>, accesses: map<Supplier.Token, Supplier.Access>, d: CompanyId)
    : (r: map<RowId, Supplier.Round>)
    requires forall k :: k in rows && rows[k].access.Some? ==> rows[k].access.value in accesses
    ensures r.Keys == rows.Keys
    ensures forall k :: k in r ==> r[k].company.Some?
    ensures forall k :: k in rows && rows[k].company.Some? ==> r[k] == rows[k]
    ensures forall k :: k in rows && rows[k].company.None? && Present(rows[k].access) ==>
              r[k] == rows[k].(company := OrDefault(accesses[rows[k].access.value].company, d))
    ensures forall k :: k in rows && rows[k].company.None? && !Present(rows[k].access) ==> r[k] == rows[k].(company := Some(d))
    ensures forall k :: k in r ==> r[k].access == rows[k].access
  {
    map k | k in rows ::
      var row := rows[k];
      if row.company.Some? then row
      else row.(company := OrDefault(if Present(row.access) then accesses[row.access.value].company else None, d))
  }

  /** A supplier-interaction file: the same rule as for rounds. */
  function BackfillFiles(rows: map<RowId, Supplier.InteractionFile>, accesses: map<Supplier.Token, Supplier.Access>, d: CompanyId)
    : (r: map<RowId, Supplier.InteractionFile>)
    requires forall k :: k in rows && rows[k].access.Some? ==> rows[k].access.value in accesses
    ensures r.Keys == rows.Keys
    ensures forall k :: k in r ==> r[k].company.Some?
    ensures forall k :: k in rows && rows[k].company.Some? ==> r[k] == rows[k]
    ensures forall k :: k in rows && rows[k].company.None? && Present(rows[k].access) ==>
              r[k] == rows[k].(company := OrDefault(accesses[rows[k].access.value].company, d))
    ensures forall k :: k in rows && rows[k].company.None? && !Present(rows[k].access) ==> r[k] == rows[k].(company := Some(d))
    ensures forall k :: k in r ==> r[k].access == rows[k].access
  {
    map k | k in rows ::
      var row := rows[k];
      if row.company.Some? then row
      else row.(company := OrDefault(if Present(row.access) then accesses[row.access.value].company else None, d))
  }

  /** A quote takes its project's company, falling back to the default. */
  function BackfillQuotes(rows: map<RowId, Quote>, projects: map<ProjectId, Project>, d: CompanyId): (r: map<RowId, Quote>)
    requires forall k :: k in rows && rows[k].project.Some? ==> rows[k].project.value in projects
    ensures r.Keys == rows.Keys
    ensures forall k :: k in r ==> r[k].company.Some?
    ensures forall k :: k in rows && rows[k].company.Some? ==> r[k] == rows[k]
    ensures forall k :: k in rows && rows[k].company.None? && Present(rows[k].project) ==>
              r[k] == rows[k].(company := OrDefault(projects[rows[k].project.value].company, d))
    ensures forall k :: k in rows && rows[k].company.None? && !Present(rows[k].project) ==> r[k] == rows[k].(company := Some(d))
    ensures forall k :: k in r ==> r[k].project == rows[k].project
  {
    map k | k in rows ::
      var q := rows[k];
      if q.company.Some? then q
      else q.(company := OrDefault(if Present(q.project) then projects[q.project.value].company else None, d))
  }

  /** An existing profile: only a missing company of a non-superadmin is
      filled in; nothing else about the profile changes. */
  function RepairProfile(p: Profile, d: CompanyId): (q: Profile)
    ensures q.role == p.role && q.isManagement == p.isManagement && q.isActive == p.isActive
    ensures p.company.None? && p.role != Superadmin ==> q.company == Some(d)
    ensures !(p.company.None? && p.role != Superadmin) ==> q == p
    ensures q.company.Some? || q.role == Superadmin
  {
    if p.company.None? && p.role != Superadmin then p.(company := Some(d)) else p
  }

  /** The profile created for a user who has none: a superuser becomes a
      company-less superadmin, anyone else a viewer of the default company;
      management follows staff or superuser status. */
  function NewProfile(u: User, d: CompanyId): (p: Profile)
    ensures p.isActive
    ensures p.isManagement <==> u.isStaff || u.isSuperuser
    ensures u.isSuperuser ==> p.role == Superadmin && p.company.None?
    ensures !u.isSuperuser ==> p.role == Viewer && p.company == Some(d)
  {
    if u.isSuperuser then Profile(None, Superadmin, true, true)
    else Profile(Some(d), Viewer, u.isStaff, true)
  }

  /** The per-user pass: repair existing profiles, create missing ones. */
  function BackfillProfiles(users: map<UserId, User>, profiles: map<UserId, Profile>, d: CompanyId): (r: map<UserId, Profile>)
    ensures r.Keys == users.Keys + profiles.Keys
    ensures forall u :: u in users && u in profiles ==> r[u] == RepairProfile(profiles[u], d)
    ensures forall u :: u in users && u !in profiles ==> r[u] == NewProfile(users[u], d)
    ensures forall u :: u !in users && u in profiles ==> r[u] == profiles[u]
  {
    map u | u in users.Keys + profiles.Keys ::
      if u in users then
        if u in profiles then RepairProfile(profiles[u], d) else NewProfile(users[u], d)
      else profiles[u]
  }

  /** The migration's forward step, table by table in the source's order:
      each table reads its parents after they were backfilled. */
  function Forwards(db: Db): (r: Result<Db, MigrationError>)
    requires Linked(db)
    ensures r.Err? <==> |Matching(db.companies, DefaultCompanyName)| > 1
    ensures r.Ok? ==> Linked(r.value) && Owned(r.value) && Profiled(r.value)
    ensures r.Ok? ==> |db.companies| <= |r.value.companies| && r.value.companies[..|db.companies|] == db.companies
    ensures r.Ok? ==> r.value.users == db.users
    ensures r.Ok? ==> r.value.projects.Keys == db.projects.Keys && r.value.attachments.Keys == db.attachments.Keys
    ensures r.Ok? ==> r.value.accesses.Keys == db.accesses.Keys && r.value.rounds.Keys == db.rounds.Keys
    ensures r.Ok? ==> r.value.files.Keys == db.files.Keys && r.value.quotes.Keys == db.quotes.Keys
  {
    match DefaultCompany(db.companies)
    case Err(e) => Err(e)
    case Ok((companies, d)) =>
      var db' := Pass(db, companies, d);
      PassEstablishes(db, companies, d);
      Ok(db')
  }

  /** The table-by-table pass once the default company `d` is known. */
  function Pass(db: Db, companies: seq<Company>, d: CompanyId): (db': Db)
    requires Linked(db)
  {
    var projects := BackfillProjects(db.projects, d);
    var accesses := BackfillAccesses(db.accesses, projects, d);
    Db(companies,
       projects,
       BackfillAttachments(db.attachments, projects, d),
       accesses,
       BackfillRounds(db.rounds, accesses, d),
       BackfillFiles(db.files, accesses, d),
       BackfillQuotes(db.quotes, projects, d),
       db.users,
       BackfillProfiles(db.users, db.profiles, d))
  }

  lemma PassEstablishes(db: Db, companies: seq<Company>, d: CompanyId)
    requires Linked(db)
    ensures var db' := Pass(db, companies, d);
            && Linked(db') && Owned(db') && Profiled(db')
            && db'.companies == companies && db'.users == db.users
            && db'.projects.Keys == db.projects.Keys && db'.attachments.Keys == db.attachments.Keys
            && db'.accesses.Keys == db.accesses.Keys && db'.rounds.Keys == db.rounds.Keys
            && db'.files.Keys == db.files.Keys && db'.quotes.Keys == db.quotes.Keys
  {
    var profiles := BackfillProfiles(db.users, db.profiles, d);
    var db' := Pass(db, companies, d);
    assert db'.profiles == profiles;
    assert Profiled(db') by {
      forall u | u in db.users
        ensures u in profiles && (profiles[u].company.Some? || profiles[u].role == Superadmin)
      {
        if u in db.profiles {
          assert profiles[u] == RepairProfile(db.profiles[u], d);
        } else {
          assert profiles[u] == NewProfile(db.users[u], d);
        }
      }
    }
  }

  /** Rolling the migration back leaves the data as it is. */
  function Backwards(db: Db): (r: Db)
    ensures r == db
  {
    db
  }

  /** A row that already had a company is exactly as it was; a row that had
      none differs only in its company. */
  lemma ForwardsTouchesOnlyMissingCompanies(db: Db)
    requires Linked(db) && Forwards(db).Ok?
    ensures var db' := Forwards(db).value;
            && (forall id :: id in db.projects && db.projects[id].company.Some? ==> db'.projects[id] == db.projects[id])
            && (forall id :: id in db.projects ==> db'.projects[id] == db.projects[id].(company := db'.projects[id].company))
            && (forall k :: k in db.attachments && db.attachments[k].company.Some? ==> db'.attachments[k] == db.attachments[k])
            && (forall t :: t in db.accesses && db.accesses[t].company.Some? ==> db'.accesses[t] == db.accesses[t])
            && (forall k :: k in db.rounds && db.rounds[k].company.Some? ==> db'.rounds[k] == db.rounds[k])
            && (forall k :: k in db.files && db.files[k].company.Some? ==> db'.files[k] == db.files[k])
            && (forall k :: k in db.quotes && db.quotes[k].company.Some? ==> db'.quotes[k] == db.quotes[k])
            && (forall u :: u in db.profiles && db.profiles[u].company.Some? ==> db'.profiles[u] == db.profiles[u])
  {
  }

  /** Children inherit through their parent: an attachment, access or quote
      with a project and no company ends up with that project's (possibly
      just backfilled) company; a round or file with an access ends up with
      the access's. A child whose parent key is missing or empty ends up with
      the default company. */
  lemma {:induction false} ForwardsInheritsThroughParents(db: Db)
    requires Linked(db) && Forwards(db).Ok?
    ensures DefaultCompany(db.companies).Ok?
    ensures var db' := Forwards(db).value;
            && (forall k :: k in db.attachments && db.attachments[k].company.None? && Present(db.attachments[k].project) ==>
                  db'.attachments[k].company == db'.projects[db.attachments[k].project.value].company)
            && (forall t :: t in db.accesses && db.accesses[t].company.None? && Present(db.accesses[t].project) ==>
                  db'.accesses[t].company == db'.projects[db.accesses[t].project.value].company)
            && (forall k :: k in db.quotes && db.quotes[k].company.None? && Present(db.quotes[k].project) ==>
                  db'.quotes[k].company == db'.projects[db.quotes[k].project.value].company)
            && (forall k :: k in db.rounds && db.rounds[k].company.None? && Present(db.rounds[k].access) ==>
                  db'.rounds[k].company == db'.accesses[db.rounds[k].access.value].company)
            && (forall k :: k in db.files && db.files[k].company.None? && Present(db.files[k].access) ==>
                  db'.files[k].company == db'.accesses[db.files[k].access.value].company)
    ensures var db' := Forwards(db).value;
            var d := Some(DefaultCompany(db.companies).value.1);
            && (forall k :: k in db.attachments && db.attachments[k].company.None? && !Present(db.attachments[k].project) ==>
                  db'.attachments[k].company == d)
            && (forall t :: t in db.accesses && db.accesses[t].company.None? && !Present(db.accesses[t].project) ==>
                  db'.accesses[t].company == d)
            && (forall k :: k in db.quotes && db.quotes[k].company.None? && !Present(db.quotes[k].project) ==>
                  db'.quotes[k].company == d)
            && (forall k :: k in db.rounds && db.rounds[k].company.None? && !Present(db.rounds[k].access) ==>
                  db'.rounds[k].company == d)
            && (forall k :: k in db.files && db.files[k].company.None? && !Present(db.files[k].access) ==>
                  db'.files[k].company == d)
  {
    var db' := Forwards(db).value;
    assert Owned(db');
  }

  /** Backfilling a table whose rows all have a company changes nothing. */
  lemma OwnedTablesAreFixed(db: Db, d: CompanyId)
    requires Linked(db) && Owned(db)
    ensures BackfillProjects(db.projects, d) == db.projects
    ensures BackfillAttachments(db.attachments, db.projects, d) == db.attachments
    ensures BackfillAccesses(db.accesses, db.projects, d) == db.accesses
    ensures BackfillRounds(db.rounds, db.accesses, d) == db.rounds
    ensures BackfillFiles(db.files, db.accesses, d) == db.files
    ensures BackfillQuotes(db.quotes, db.projects, d) == db.quotes
  {
  }

  /** Once every user has a profile and every non-superadmin profile a
      company, the profile pass changes nothing. */
  lemma ProfiledIsFixed(db: Db, d: CompanyId)
    requires Profiled(db)
    ensures BackfillProfiles(db.users, db.profiles, d) == db.profiles
  {
    var r := BackfillProfiles(db.users, db.profiles, d);
    assert r.Keys == db.profiles.Keys;
    forall u | u in db.profiles ensures r[u] == db.profiles[u] {
      if u in db.users {
        assert r[u] == RepairProfile(db.profiles[u], d);
      }
    }
  }

  /** Running the migration twice is running it once: the second run finds
      the one default company and every null filter comes back empty. */
  lemma {:induction false} ForwardsIdempotent(db: Db)
    requires Linked(db) && Forwards(db).Ok?
    ensures Linked(Forwards(db).value)
    ensures Forwards(Forwards(db).value) == Forwards(db)
  {
    var db1 := Forwards(db).value;
    var (cs, d) := DefaultCompany(db.companies).value;
    assert db1.companies == cs;
    assert Matching(cs, DefaultCompanyName) == [d];
    assert DefaultCompany(cs) == Ok((cs, d));
    OwnedTablesAreFixed(db1, d);
    ProfiledIsFixed(db1, d);
  }
}

=== FILE: domain.dfy ===
/** Entities shared by every component of the RFQ control layer: tenants,
    projects and their items, user profiles, and the small failure-carrying
    wrappers the operations return. */
module Domain {

  /** Conventional optional value, standing for a nullable column or key. */
  datatype Option<+T> = None | Some(value: T)

  /** Either a value or a defined failure. */
  datatype Result<+T, +E> = Ok(value: T) | Err(error: E)

  /** Database ids of companies are auto-increment keys, so never zero:
      a company id is "falsy" in the source exactly when it is absent. */
  type CompanyId = k: nat | k > 0 witness 1

  type UserId = nat
  type ProjectId = string
  type ItemId = string

  /** A project's version stamp. The source uses the row's last-modification
      timestamp; clients only ever compare it for equality, and each write
      moves it strictly forward, so a counter keeps everything that matters. */
  type Version = nat

  /** A tenant. */
  datatype Company = Company(name: string, isActive: bool)

  /** One line of a project's free-form item list: an id plus named fields
      (`supplier`, `price_1`, `status`, quantities, ...). */
  datatype Item = Item(id: ItemId, fields: map<string, string>)

  datatype Project = Project(
    id: ProjectId,
    company: Option<CompanyId>,
    name: string,
    items: seq<Item>,
    version: Version)

  datatype Role = Superadmin | Admin | Editor | Viewer

  /** Binds a user to one company (none for a superadmin) and a role. */
  datatype Profile = Profile(
    company: Option<CompanyId>,
    role: Role,
    isManagement: bool,
    isActive: bool)

  datatype User = User(isSuperuser: bool, isStaff: bool)

  /** Tenant-owned rows that hang off a project. */
  datatype Attachment = Attachment(project: Option<ProjectId>, company: Option<CompanyId>)
  datatype Quote = Quote(project: Option<ProjectId>, company: Option<CompanyId>)
}

=== FILE: locks.dfy ===
/** LockManager: exclusive advisory locks keyed by resource string. A key is
    often `project:<id>:edit`, but any finer-grained key may be tied to a
    project through the lock's `project` field. */
module Locks {
  import opened Domain

  type ResourceKey = string

  datatype Lock = Lock(holder: UserId, project: Option<ProjectId>, context: string, expiresAt: nat)

  /** At most one lock per key, by construction of the map. */
  type Table = map<ResourceKey, Lock>

  /** A lock past its expiry is treated as absent. */
  predicate Live(l: Lock, now: nat)
  {
    now < l.expiresAt
  }

  /** `key` carries a live lock that someone other than `holder` holds. */
  predicate HeldByOther(t: Table, key: ResourceKey, holder: UserId, now: nat)
  {
    key in t && Live(t[key], now) && t[key].holder != holder
  }

  /** Some live lock tied to `project`, on any key, belongs to another user. */
  predicate BlocksWrite(t: Table, project: ProjectId, writer: UserId, now: nat)
  {
    exists k :: k in t && Live(t[k], now) && t[k].project == Some(project) && t[k].holder != writer
  }

  datatype Acquisition = Acquired(table: Table) | Held(current: Lock)

  /** Acquire or renew: free, expired and own locks are (re)taken; a live lock
      of another holder is reported back unchanged. */
  function Acquire(t: Table, key: ResourceKey, holder: UserId, project: Option<ProjectId>,
                   context: string, now: nat, ttl: nat): (r: Acquisition)
    ensures r.Held? <==> HeldByOther(t, key, holder, now)
    ensures r.Held? ==> r.current == t[key]
    ensures r.Acquired? ==> key in r.table && r.table[key].holder == holder
    ensures r.Acquired? ==> r.table[key].project == project && r.table[key].context == context
    ensures r.Acquired? ==> r.table[key].expiresAt == now + ttl
    ensures r.Acquired? ==> forall k :: k != key ==> (k in r.table <==> k in t)
    ensures r.Acquired? ==> forall k :: k != key && k in t ==> r.table[k] == t[k]
  {
    if HeldByOther(t, key, holder, now) then Held(t[key])
    else Acquired(t[key := Lock(holder, project, context, now + ttl)])
  }

  /** Release by the holder removes the lock; anyone else's release is a no-op. */
  function Release(t: Table, key: ResourceKey, holder: UserId): (t': Table)
    ensures key in t && t[key].holder == holder ==> key !in t'
    ensures !(key in t && t[key].holder == holder) ==> t' == t
    ensures forall k :: k != key ==> (k in t' <==> k in t)
    ensures forall k :: k != key && k in t' ==> t'[k] == t[k]
  {
    if key in t && t[key].holder == holder then t - {key} else t
  }

  /** Unconditional removal, for an administrator's force-unlock. */
  function ForceRelease(t: Table, key: ResourceKey): (t': Table)
    ensures key !in t'
    ensures forall k :: k != key ==> (k in t' <==> k in t)
    ensures forall k :: k != key && k in t' ==> t'[k] == t[k]
  {
    t - {key}
  }

  /** Taking a lock never stands in one's own way: a write that no lock
      blocked before an acquisition is not blocked after it. */
  lemma {:induction false} AcquireNeverBlocksHolder(t: Table, key: ResourceKey, holder: UserId, project: Option<ProjectId>,
                                                    context: string, now: nat, ttl: nat, target: ProjectId, later: nat)
    requires Acquire(t, key, holder, project, context, now, ttl).Acquired?
    requires !BlocksWrite(t, target, holder, later)
    ensures !BlocksWrite(Acquire(t, key, holder, project, context, now, ttl).table, target, holder, later)
  {
    var t' := Acquire(t, key, holder, project, context, now, ttl).table;
    forall k | k in t' && Live(t'[k], later) && t'[k].project == Some(target)
      ensures t'[k].holder == holder
    {
      if k != key {
        assert k in t && t[k] == t'[k];
      }
    }
  }

  /** A freshly acquired lock tied to a project blocks every other user's
      write to that project until it expires, whatever its key. */
  lemma AcquiredLockBlocksOthers(t: Table, key: ResourceKey, holder: UserId, project: ProjectId,
                                 context: string, now: nat, ttl: nat, writer: UserId, later: nat)
    requires Acquire(t, key, holder, Some(project), context, now, ttl).Acquired?
    requires writer != holder && later < now + ttl
    ensures BlocksWrite(Acquire(t, key, holder, Some(project), context, now, ttl).table, project, writer, later)
  {
    var t' := Acquire(t, key, holder, Some(project), context, now, ttl).table;
    assert key in t' && Live(t'[key], later);
  }

  /** Time only frees: a write blocked at a later time was already blocked
      earlier, because locks expire and are never extended by the clock. */
  lemma ExpiryOnlyFrees(t: Table, project: ProjectId, writer: UserId, now: nat, later: nat)
    requires now <= later && BlocksWrite(t, project, writer, later)
    ensures BlocksWrite(t, project, writer, now)
  {
    var k :| k in t && Live(t[k], later) && t[k].project == Some(project) && t[k].holder != writer;
    assert Live(t[k], now);
  }
}

=== FILE: overlay.dfy ===
/** The browser client's bootstrap rule: which copy of a project wins when a
    tab (re)loads, the server's canonical copy or a locally pending draft. */
module Overlay {
  import opened Domain

  /** Identifies the signed-in user, role and company a draft was made under. */
  type Scope = string

  /** A locally pending draft of one project: the session scope it was made
      in, the server version it was based on, and the items it changes. */
  datatype Draft = Draft(sessionScope: Scope, baseVersion: Version, items: seq<Item>)

  /** A queued write not yet acknowledged by the server. */
  datatype QueuedWrite = QueuedWrite(at: nat)

  /** What a tab keeps in local storage: its copy of the projects, the
      pending drafts by project id, and the sync queue. */
  datatype Client = Client(projects: seq<Project>, drafts: map<ProjectId, Draft>, queue: seq<QueuedWrite>)

  /** The strict guard: a draft may override the server only when it was made
      in this session scope, against the version the server still holds, and
      writes are still waiting to be synced. */
  predicate Applies(d: Draft, server: Project, scope: Scope, queue: seq<QueuedWrite>)
  {
    d.sessionScope == scope && d.baseVersion == server.version && |queue| > 0
  }

  /** The copy of one server project a tab adopts. */
  function Adopted(server: Project, drafts: map<ProjectId, Draft>, scope: Scope, queue: seq<QueuedWrite>): (p: Project)
    ensures server.id in drafts && Applies(drafts[server.id], server, scope, queue) ==>
              p.items == drafts[server.id].items && p.(items := server.items) == server
    ensures !(server.id in drafts && Applies(drafts[server.id], server, scope, queue)) ==> p == server
  {
    if server.id in drafts && Applies(drafts[server.id], server, scope, queue)
    then server.(items := drafts[server.id].items)
    else server
  }

  /** The server's project list, each project overlaid by its draft where
      the guard allows. */
  function AdoptAll(server: seq<Project>, drafts: map<ProjectId, Draft>, scope: Scope, queue: seq<QueuedWrite>): (r: seq<Project>)
    ensures |r| == |server|
    ensures forall i :: 0 <= i < |server| ==> r[i].id == server[i].id && r[i].version == server[i].version
    ensures forall i :: 0 <= i < |server| ==> r[i].name == server[i].name && r[i].company == server[i].company
    ensures forall i :: 0 <= i < |server| ==>
              (server[i].id in drafts && Applies(drafts[server[i].id], server[i], scope, queue) ==> r[i].items == drafts[server[i].id].items)
    ensures forall i :: 0 <= i < |server| ==>
              (!(server[i].id in drafts && Applies(drafts[server[i].id], server[i], scope, queue)) ==> r[i] == server[i])
  {
    if |server| == 0 then []
    else [Adopted(server[0], drafts, scope, queue)] + AdoptAll(server[1..], drafts, scope, queue)
  }

  /** The ids of a project list. */
  function Ids(ps: seq<Project>): (ids: set<ProjectId>)
    ensures forall i :: 0 <= i < |ps| ==> ps[i].id in ids
    ensures forall id :: id in ids ==> exists i :: 0 <= i < |ps| && ps[i].id == id
  {
    set i | 0 <= i < |ps| :: ps[i].id
  }

  /** Bootstrap from the server: the tab's own stored copy is discarded in
      favour of the server list (overlaid by guarded drafts), and with an
      empty sync queue the drafts of the server's projects are dropped. */
  function Bootstrap(c: Client, server: seq<Project>, scope: Scope): (c': Client)
    ensures c'.projects == AdoptAll(server, c.drafts, scope, c.queue)
    ensures c'.queue == c.queue
    ensures |c.queue| == 0 ==> c'.drafts.Keys == c.drafts.Keys - Ids(server)
    ensures |c.queue| > 0 ==> c'.drafts == c.drafts
    ensures forall id :: id in c'.drafts ==> id in c.drafts && c'.drafts[id] == c.drafts[id]
  {
    var drafts := if |c.queue| == 0 then c.drafts - Ids(server) else c.drafts;
    Client(AdoptAll(server, c.drafts, scope, c.queue), drafts, c.queue)
  }

  /** With nothing queued, no draft applies: the tab holds exactly the
      server's projects and no draft of them survives. */
  lemma {:induction false} EmptyQueueAdoptsServer(c: Client, server: seq<Project>, scope: Scope)
    requires |c.queue| == 0
    ensures Bootstrap(c, server, scope).projects == server
    ensures forall i :: 0 <= i < |server| ==> server[i].id !in Bootstrap(c, server, scope).drafts
  {
    var r := AdoptAll(server, c.drafts, scope, c.queue);
    assert |r| == |server|;
    assert forall i :: 0 <= i < |server| ==> r[i] == server[i];
  }

  /** Two tabs, whatever stale copies and drafts they hold, converge on the
      same projects when both have empty sync queues. */
  lemma TabsConverge(a: Client, b: Client, server: seq<Project>, scope: Scope)
    requires |a.queue| == 0 && |b.queue| == 0
    ensures Bootstrap(a, server, scope).projects == Bootstrap(b, server, scope).projects == server
  {
    EmptyQueueAdoptsServer(a, server, scope);
    EmptyQueueAdoptsServer(b, server, scope);
  }

  /** A draft based on a version other than the server's never overrides
      the server's items, even in the same session scope. */
  lemma StaleDraftNeverApplies(c: Client, server: seq<Project>, scope: Scope, i: nat)
    requires i < |server| && server[i].id in c.drafts
    requires c.drafts[server[i].id].baseVersion != server[i].version
    ensures Bootstrap(c, server, scope).projects[i] == server[i]
  {
  }

  /** The draft of a project decides the project's items exactly when all
      three guard conditions hold (for a draft that differs from the server). */
  lemma DraftAppliesExactly(c: Client, server: seq<Project>, scope: Scope, i: nat)
    requires i < |server| && server[i].id in c.drafts
    requires c.drafts[server[i].id].items != server[i].items
    ensures var d := c.drafts[server[i].id];
            (Bootstrap(c, server, scope).projects[i].items == d.items
             <==> d.sessionScope == scope && d.baseVersion == server[i].version && |c.queue| > 0)
  {
  }
}

=== FILE: pipeline.dfy ===
/** ProjectMutationPipeline and the request surface of the control layer.
    Every request is one atomic step from a server state to the next state
    and a reply; the checks run in the fixed order authentication, tenant
    scope, lock, version, and a failing step leaves the state as it was. */
module Pipeline {
  import opened Domain
  import Tenancy
  import Locks
  import Audit
  import Versioning
  import Supplier

  type SessionId = string
  type FileId = nat

  datatype Server = Server(
    projects: map<ProjectId, Project>,
    locks: Locks.Table,
    accesses: map<Supplier.Token, Supplier.Access>,
    files: map<FileId, Supplier.InteractionFile>,
    profiles: map<UserId, Profile>,
    sessions: map<SessionId, UserId>,
    audit: Audit.Log)

  /** The error taxonomy of the request surface. */
  datatype Failure =
    | AuthenticationRequired
    | Forbidden(deniedIds: seq<ProjectId>)
    | NotFound
    | LockConflict(projectId: ProjectId, project: Project)
    | LockHeld(current: Locks.Lock, canonical: Option<Project>)
    | VersionConflict(projectId: ProjectId, project: Project, serverVersion: Version)
    | WorkflowClosed

  function StatusCode(f: Failure): (code: nat)
    ensures code == 409 <==> f.LockConflict? || f.LockHeld? || f.VersionConflict?
    ensures code == 403 <==> f.Forbidden? || f.WorkflowClosed?
    ensures code == 401 <==> f.AuthenticationRequired?
    ensures code != 500
  {
    match f
    case AuthenticationRequired => 401
    case Forbidden(_) => 403
    case NotFound => 404
    case LockConflict(_, _) => 409
    case LockHeld(_, _) => 409
    case VersionConflict(_, _, _) => 409
    case WorkflowClosed => 403
  }

  /** One request: the next state and the reply. */
  datatype Step<T> = Step(next: Server, reply: Result<T, Failure>)

  const ForceUnlockAction := "lock.force_unlock"
  const LockEntity := "lock"

  /** The caller behind a live session. */
  datatype Actor = Actor(user: UserId, profile: Profile)

  /** The session is re-validated against the live session store on every
      request. A user without a profile is authenticated but has no scope. */
  function Identify(s: Server, session: Option<SessionId>): (r: Result<Actor, Failure>)
    ensures r.Ok? <==> session.Some? && session.value in s.sessions && s.sessions[session.value] in s.profiles
    ensures r.Ok? ==> r.value.user == s.sessions[session.value] && r.value.profile == s.profiles[r.value.user]
    ensures r.Err? ==> r.error == (if session.Some? && session.value in s.sessions then Forbidden([]) else AuthenticationRequired)
  {
    if session.None? || session.value !in s.sessions then Err(AuthenticationRequired)
    else
      var user := s.sessions[session.value];
      if user !in s.profiles then Err(Forbidden([])) else Ok(Actor(user, s.profiles[user]))
  }

  /** Logout ends the session for every tab that shares its cookie. */
  function Logout(s: Server, session: SessionId): (s': Server)
    ensures session !in s'.sessions
    ensures s'.(sessions := s.sessions) == s
    ensures forall t :: t != session ==> (t in s'.sessions <==> t in s.sessions)
  {
    s.(sessions := s.sessions - {session})
  }

  /** An edit the tenant-scope and lock checks let through: the project
      exists, the caller may write it and no other user's live lock blocks it. */
  predicate Admitted(projects: map<ProjectId, Project>, locks: Locks.Table, actor: Actor, e: Versioning.Edit, now: nat)
  {
    && e.project in projects
    && Tenancy.Authorized(actor.profile, projects[e.project].company, Tenancy.Write)
    && !Locks.BlocksWrite(locks, e.project, actor.user, now)
  }

  /** The checks one project edit must pass, in order, and the project it
      would persist. */
  function CheckEdit(projects: map<ProjectId, Project>, locks: Locks.Table, actor: Actor,
                     e: Versioning.Edit, now: nat): (r: Result<Project, Failure>)
    ensures r.Ok? <==> e.project in projects
                       && Tenancy.Authorized(actor.profile, projects[e.project].company, Tenancy.Write)
                       && !Locks.BlocksWrite(locks, e.project, actor.user, now)
                       && Versioning.Current(projects[e.project], e.baseVersion)
    ensures r.Ok? ==> r.value == Versioning.Apply(projects[e.project], e)
    ensures e.project !in projects ==> r == Err(NotFound)
    ensures e.project in projects && !Tenancy.Authorized(actor.profile, projects[e.project].company, Tenancy.Write) ==>
              r == Err(Forbidden([e.project]))
    ensures e.project in projects && Tenancy.Authorized(actor.profile, projects[e.project].company, Tenancy.Write) ==>
              (Locks.BlocksWrite(locks, e.project, actor.user, now) <==> r == Err(LockConflict(e.project, projects[e.project])))
    ensures r.Err? && r.error.VersionConflict? ==>
              r.error == VersionConflict(e.project, projects[e.project], projects[e.project].version)
    ensures Admitted(projects, locks, actor, e, now) && !Versioning.Current(projects[e.project], e.baseVersion) ==>
              r == Err(VersionConflict(e.project, projects[e.project], projects[e.project].version))
    ensures r.Err? ==> r.error.NotFound? || r.error.Forbidden? || r.error.LockConflict? || r.error.VersionConflict?
  {
    if e.project !in projects then Err(NotFound)
    else
      var p := projects[e.project];
      if !Tenancy.Authorized(actor.profile, p.company, Tenancy.Write) then Err(Forbidden([e.project]))
      else if Locks.BlocksWrite(locks, e.project, actor.user, now) then Err(LockConflict(e.project, p))
      else if !Versioning.Current(p, e.baseVersion) then Err(VersionConflict(e.project, p, p.version))
      else Ok(Versioning.Apply(p, e))
  }

  /** Single-project update (PUT of one project). */
  function Put(s: Server, session: Option<SessionId>, e: Versioning.Edit, now: nat): (r: Step<Project>)
    ensures r.reply.Err? ==> r.next == s
    ensures r.reply.Ok? <==> Identify(s, session).Ok? && CheckEdit(s.projects, s.locks, Identify(s, session).value, e, now).Ok?
    ensures r.reply.Ok? ==> e.project in s.projects && r.next.projects == s.projects[e.project := r.reply.value]
    ensures r.reply.Ok? ==> r.reply.value.version > s.projects[e.project].version
    ensures r.reply.Ok? ==> r.reply.value.name == e.name && r.reply.value.items == e.items
    ensures r.reply.Ok? ==> r.next.(projects := s.projects) == s
    ensures r.reply.Ok? ==> r.reply.value == Versioning.Apply(s.projects[e.project], e)
    ensures Identify(s, session).Ok? && r.reply.Err? ==>
              r.reply == Err(CheckEdit(s.projects, s.locks, Identify(s, session).value, e, now).error)
    ensures Identify(s, session).Err? ==> r.reply == Err(Identify(s, session).error)
  {
    match Identify(s, session)
    case Err(f) => Step(s, Err(f))
    case Ok(actor) =>
      match CheckEdit(s.projects, s.locks, actor, e, now)
      case Err(f) => Step(s, Err(f))
      case Ok(p) => Step(s.(projects := s.projects[e.project := p]), Ok(p))
  }

  /** A batch applies its edits one after another against the evolving
      project map; the first failing edit fails the whole batch, and the
      last edit of each project decides its stored name and items. */
  function ApplyAll(projects: map<ProjectId, Project>, locks: Locks.Table, actor: Actor,
                    edits: seq<Versioning.Edit>, now: nat): (r: Result<map<ProjectId, Project>, Failure>)
    ensures r.Ok? ==> r.value.Keys == projects.Keys
    ensures r.Ok? ==> forall id :: id in projects ==> r.value[id].version >= projects[id].version
    ensures r.Ok? ==> forall id :: id in projects ==> r.value[id].id == projects[id].id && r.value[id].company == projects[id].company
    ensures r.Ok? ==> forall id :: id in projects && (forall i :: 0 <= i < |edits| ==> edits[i].project != id) ==>
                        r.value[id] == projects[id]
    ensures r.Ok? ==> forall i :: 0 <= i < |edits| ==> edits[i].project in projects
    ensures r.Ok? ==> forall i :: 0 <= i < |edits| ==> r.value[edits[i].project].version > projects[edits[i].project].version
    ensures r.Ok? ==> forall i :: 0 <= i < |edits| && (forall j :: i < j < |edits| ==> edits[j].project != edits[i].project) ==>
                        r.value[edits[i].project].name == edits[i].name && r.value[edits[i].project].items == edits[i].items
    ensures r.Ok? ==> forall i :: 0 <= i < |edits| ==> Admitted(projects, locks, actor, edits[i], now)
    ensures r.Ok? ==> forall i :: 0 <= i < |edits| && (forall j :: 0 <= j < i ==> edits[j].project != edits[i].project) ==>
                        Versioning.Current(projects[edits[i].project], edits[i].baseVersion)
  {
    if |edits| == 0 then Ok(projects)
    else
      match CheckEdit(projects, locks, actor, edits[0], now)
      case Err(f) => Err(f)
      case Ok(p) =>
        var m := projects[edits[0].project := p];
        var rest := ApplyAll(m, locks, actor, edits[1..], now);
        if rest.Ok? then
          ApplyAllStep(projects, p, m, rest.value, edits);
          ApplyAllAdmits(projects, locks, actor, p, m, edits, now);
          rest
        else rest
  }

  /** The inductive step of ApplyAll's contract: the first edit's effect
      followed by the rest of the batch. */
  lemma ApplyAllStep(projects: map<ProjectId, Project>, p: Project, m: map<ProjectId, Project>,
                     after: map<ProjectId, Project>, edits: seq<Versioning.Edit>)
    requires |edits| > 0 && edits[0].project in projects
    requires m == projects[edits[0].project := p]
    requires p.version > projects[edits[0].project].version
    requires after.Keys == m.Keys
    requires forall id :: id in m ==> after[id].version >= m[id].version
    requires forall id :: id in m && (forall i :: 0 <= i < |edits[1..]| ==> edits[1..][i].project != id) ==> after[id] == m[id]
    requires forall i :: 0 <= i < |edits[1..]| ==> edits[1..][i].project in m
    requires forall i :: 0 <= i < |edits[1..]| ==> after[edits[1..][i].project].version > m[edits[1..][i].project].version
    requires p.name == edits[0].name && p.items == edits[0].items
    requires p.id == projects[edits[0].project].id && p.company == projects[edits[0].project].company
    requires forall id :: id in m ==> after[id].id == m[id].id && after[id].company == m[id].company
    requires forall i :: 0 <= i < |edits[1..]| && (forall j :: i < j < |edits[1..]| ==> edits[1..][j].project != edits[1..][i].project) ==>
               after[edits[1..][i].project].name == edits[1..][i].name && after[edits[1..][i].project].items == edits[1..][i].items
    ensures after.Keys == projects.Keys
    ensures forall id :: id in projects ==> after[id].version >= projects[id].version
    ensures forall id :: id in projects ==> after[id].id == projects[id].id && after[id].company == projects[id].company
    ensures forall id :: id in projects && (forall i :: 0 <= i < |edits| ==> edits[i].project != id) ==> after[id] == projects[id]
    ensures forall i :: 0 <= i < |edits| ==> edits[i].project in projects
    ensures forall i :: 0 <= i < |edits| ==> after[edits[i].project].version > projects[edits[i].project].version
    ensures forall i :: 0 <= i < |edits| && (forall j :: i < j < |edits| ==> edits[j].project != edits[i].project) ==>
              after[edits[i].project].name == edits[i].name && after[edits[i].project].items == edits[i].items
  {
    forall i | 0 <= i < |edits| && (forall j :: i < j < |edits| ==> edits[j].project != edits[i].project)
      ensures after[edits[i].project].name == edits[i].name && after[edits[i].project].items == edits[i].items
    {
      if i == 0 {
        forall k | 0 <= k < |edits[1..]| ensures edits[1..][k].project != edits[0].project {
          assert edits[1..][k] == edits[k + 1];
        }
        assert after[edits[0].project] == m[edits[0].project];
      } else {
        assert edits[i] == edits[1..][i - 1];
        forall k | i - 1 < k < |edits[1..]| ensures edits[1..][k].project != edits[1..][i - 1].project {
          assert edits[1..][k] == edits[k + 1];
        }
      }
    }
    forall i | 1 <= i < |edits|
      ensures edits[i].project in projects
      ensures after[edits[i].project].version > projects[edits[i].project].version
    {
      assert edits[i] == edits[1..][i - 1];
    }
    forall id | id in projects && (forall i :: 0 <= i < |edits| ==> edits[i].project != id)
      ensures after[id] == projects[id]
    {
      assert id != edits[0].project;
      forall i | 0 <= i < |edits[1..]| ensures edits[1..][i].project != id {
        assert edits[1..][i] == edits[i + 1];
      }
    }
  }

  /** The checks of ApplyAll's inductive step: the first edit passed them
      against the original map, the rest against a map that differs from it
      only in the first edit's project, whose company is unchanged. */
  lemma ApplyAllAdmits(projects: map<ProjectId, Project>, locks: Locks.Table, actor: Actor, p: Project,
                       m: map<ProjectId, Project>, edits: seq<Versioning.Edit>, now: nat)
    requires |edits| > 0 && Admitted(projects, locks, actor, edits[0], now)
    requires Versioning.Current(projects[edits[0].project], edits[0].baseVersion)
    requires m == projects[edits[0].project := p] && p.company == projects[edits[0].project].company
    requires forall i :: 0 <= i < |edits[1..]| ==> Admitted(m, locks, actor, edits[1..][i], now)
    requires forall i :: 0 <= i < |edits[1..]| && edits[1..][i].project in m &&
                         (forall j :: 0 <= j < i ==> edits[1..][j].project != edits[1..][i].project) ==>
               Versioning.Current(m[edits[1..][i].project], edits[1..][i].baseVersion)
    ensures forall i :: 0 <= i < |edits| ==> Admitted(projects, locks, actor, edits[i], now)
    ensures forall i :: 0 <= i < |edits| && edits[i].project in projects &&
                        (forall j :: 0 <= j < i ==> edits[j].project != edits[i].project) ==>
              Versioning.Current(projects[edits[i].project], edits[i].baseVersion)
  {
    forall i | 1 <= i < |edits| ensures Admitted(projects, locks, actor, edits[i], now) {
      assert edits[i] == edits[1..][i - 1];
    }
    forall i | 1 <= i < |edits| && (forall j :: 0 <= j < i ==> edits[j].project != edits[i].project)
      ensures Versioning.Current(projects[edits[i].project], edits[i].baseVersion)
    {
      assert edits[i] == edits[1..][i - 1];
      assert edits[i].project != edits[0].project;
      forall j | 0 <= j < i - 1 ensures edits[1..][j].project != edits[1..][i - 1].project {
        assert edits[1..][j] == edits[j + 1];
      }
    }
  }

  /** Multi-project update; the reply carries no body beyond success. */
  function Bulk(s: Server, session: Option<SessionId>, edits: seq<Versioning.Edit>, now: nat): (r: Step<()>)
    ensures r.reply.Err? ==> r.next == s
    ensures Identify(s, session).Err? ==> r.reply == Err(Identify(s, session).error)
    ensures r.reply.Ok? ==> r.next.(projects := s.projects) == s && r.next.projects.Keys == s.projects.Keys
    ensures r.reply.Ok? ==> forall id :: id in s.projects ==>
              r.next.projects[id].id == s.projects[id].id && r.next.projects[id].company == s.projects[id].company
    ensures r.reply.Ok? ==> forall i :: 0 <= i < |edits| ==> edits[i].project in s.projects
    ensures r.reply.Ok? ==> forall i :: 0 <= i < |edits| ==>
              r.next.projects[edits[i].project].version > s.projects[edits[i].project].version
    ensures r.reply.Ok? ==> forall i :: 0 <= i < |edits| && (forall j :: i < j < |edits| ==> edits[j].project != edits[i].project) ==>
              r.next.projects[edits[i].project].name == edits[i].name && r.next.projects[edits[i].project].items == edits[i].items
    ensures r.reply.Ok? ==> Identify(s, session).Ok?
    ensures r.reply.Ok? ==> forall i :: 0 <= i < |edits| ==> Admitted(s.projects, s.locks, Identify(s, session).value, edits[i], now)
    ensures r.reply.Ok? ==> forall i :: 0 <= i < |edits| && (forall j :: 0 <= j < i ==> edits[j].project != edits[i].project) ==>
              Versioning.Current(s.projects[edits[i].project], edits[i].baseVersion)
  {
    match Identify(s, session)
    case Err(f) => Step(s, Err(f))
    case Ok(actor) =>
      match ApplyAll(s.projects, s.locks, actor, edits, now)
      case Err(f) => Step(s, Err(f))
      case Ok(m) => Step(s.(projects := m), Ok(()))
  }

  /** The canonical copy of a project, when the id names one. */
  function Canonical(s: Server, project: Option<ProjectId>): (r: Option<Project>)
    ensures r.Some? <==> project.Some? && project.value in s.projects
    ensures r.Some? ==> r.value == s.projects[project.value]
  {
    if project.Some? && project.value in s.projects then Some(s.projects[project.value]) else None
  }

  /** The project a lock would name, if any, exists and the caller may read it. */
  predicate LockInScope(s: Server, a: Actor, project: Option<ProjectId>)
  {
    project.None? || (project.value in s.projects && Tenancy.Authorized(a.profile, s.projects[project.value].company, Tenancy.Read))
  }

  /** Lock acquisition; a live lock of someone else is reported with the
      canonical project so the caller can reconcile at once. */
  function AcquireLock(s: Server, session: Option<SessionId>, key: Locks.ResourceKey, project: Option<ProjectId>,
                       context: string, now: nat, ttl: nat): (r: Step<bool>)
    ensures r.reply.Err? ==> r.next == s
    ensures r.reply.Ok? ==> r.reply.value && r.next.(locks := s.locks) == s
    ensures r.reply.Ok? ==> Identify(s, session).Ok? && !Locks.HeldByOther(s.locks, key, Identify(s, session).value.user, now)
    ensures r.reply.Ok? ==> r.next.locks == Locks.Acquire(s.locks, key, Identify(s, session).value.user, project, context, now, ttl).table
    ensures r.reply.Err? && r.reply.error.LockHeld? ==>
              key in s.locks && r.reply.error == LockHeld(s.locks[key], Canonical(s, project))
    ensures Identify(s, session).Err? ==> r.reply == Err(Identify(s, session).error)
    ensures Identify(s, session).Ok? ==>
              var a := Identify(s, session).value;
              (r.reply.Ok? <==> LockInScope(s, a, project) && !Locks.HeldByOther(s.locks, key, a.user, now))
    ensures Identify(s, session).Ok? ==>
              var a := Identify(s, session).value;
              LockInScope(s, a, project) && Locks.HeldByOther(s.locks, key, a.user, now) ==> r.reply.Err? && r.reply.error.LockHeld?
    ensures Identify(s, session).Ok? && project.Some? && project.value !in s.projects ==> r.reply == Err(NotFound)
    ensures Identify(s, session).Ok? && project.Some? && project.value in s.projects &&
            !Tenancy.Authorized(Identify(s, session).value.profile, s.projects[project.value].company, Tenancy.Read) ==>
              r.reply == Err(Forbidden([project.value]))
  {
    match Identify(s, session)
    case Err(f) => Step(s, Err(f))
    case Ok(actor) =>
      if project.Some? && project.value !in s.projects then Step(s, Err(NotFound))
      else if project.Some? && !Tenancy.Authorized(actor.profile, s.projects[project.value].company, Tenancy.Read) then
        Step(s, Err(Forbidden([project.value])))
      else
        match Locks.Acquire(s.locks, key, actor.user, project, context, now, ttl)
        case Held(l) => Step(s, Err(LockHeld(l, Canonical(s, project))))
        case Acquired(t) => Step(s.(locks := t), Ok(true))
  }

  /** Voluntary release; releasing someone else's lock changes nothing. */
  function ReleaseLock(s: Server, session: Option<SessionId>, key: Locks.ResourceKey): (r: Step<bool>)
    ensures r.reply.Err? ==> r.next == s
    ensures r.reply.Ok? ==> r.next.(locks := s.locks) == s
    ensures r.reply.Ok? ==> Identify(s, session).Ok?
    ensures r.reply.Ok? ==> (r.reply.value <==> key in s.locks && s.locks[key].holder == Identify(s, session).value.user)
    ensures r.reply.Ok? && r.reply.value ==> key !in r.next.locks
    ensures r.reply.Ok? && !r.reply.value ==> r.next == s
  {
    match Identify(s, session)
    case Err(f) => Step(s, Err(f))
    case Ok(actor) =>
      var released := key in s.locks && s.locks[key].holder == actor.user;
      Step(s.(locks := Locks.Release(s.locks, key, actor.user)), Ok(released))
  }

  /** The company a lock belongs to, through its project. */
  function LockOwner(s: Server, l: Locks.Lock): (owner: Option<CompanyId>)
    ensures owner.Some? ==> l.project.Some? && l.project.value in s.projects && owner == s.projects[l.project.value].company
  {
    if l.project.Some? && l.project.value in s.projects then s.projects[l.project.value].company else None
  }

  /** An active administrator may force a key open when the key is free or
      its lock belongs to a company the administrator administers. */
  predicate MayForceUnlock(s: Server, p: Profile, key: Locks.ResourceKey)
  {
    && p.isActive && Tenancy.Permits(p.role, Tenancy.Administer)
    && (key !in s.locks || Tenancy.Authorized(p, LockOwner(s, s.locks[key]), Tenancy.Administer))
  }

  /** An administrator of the lock's company (or a superadmin) clears the
      lock unconditionally; the action is always audited, an unlock of a key
      that is already free included. */
  function ForceUnlock(s: Server, session: Option<SessionId>, key: Locks.ResourceKey): (r: Step<bool>)
    ensures r.reply.Err? ==> r.next == s
    ensures r.reply.Ok? ==> r.reply.value && key !in r.next.locks
    ensures r.reply.Ok? ==> Identify(s, session).Ok? && Tenancy.Permits(Identify(s, session).value.profile.role, Tenancy.Administer)
    ensures r.reply.Ok? && key in s.locks ==>
              Tenancy.Authorized(Identify(s, session).value.profile, LockOwner(s, s.locks[key]), Tenancy.Administer)
    ensures r.reply.Ok? ==> r.next.audit == Audit.Append(s.audit, Audit.Entry(ForceUnlockAction, LockEntity, key, Identify(s, session).value.user))
    ensures r.reply.Ok? ==> r.next.(locks := s.locks, audit := s.audit) == s
    ensures r.reply.Ok? ==> forall k :: k != key ==> (k in r.next.locks <==> k in s.locks)
    ensures r.reply.Ok? ==> r.next.locks == Locks.ForceRelease(s.locks, key)
    ensures Identify(s, session).Err? ==> r.reply == Err(Identify(s, session).error)
    ensures Identify(s, session).Ok? ==> (r.reply.Ok? <==> MayForceUnlock(s, Identify(s, session).value.profile, key))
    ensures Identify(s, session).Ok? && !MayForceUnlock(s, Identify(s, session).value.profile, key) ==> r.reply == Err(Forbidden([]))
  {
    match Identify(s, session)
    case Err(f) => Step(s, Err(f))
    case Ok(actor) =>
      if !actor.profile.isActive || !Tenancy.Permits(actor.profile.role, Tenancy.Administer) then Step(s, Err(Forbidden([])))
      else if key in s.locks && !Tenancy.Authorized(actor.profile, LockOwner(s, s.locks[key]), Tenancy.Administer) then
        Step(s, Err(Forbidden([])))
      else
        var entry := Audit.Entry(ForceUnlockAction, LockEntity, key, actor.user);
        Step(s.(locks := Locks.ForceRelease(s.locks, key), audit := Audit.Append(s.audit, entry)), Ok(true))
  }

  /** Export of selected projects: all or nothing, with the exact denied ids. */
  function ExportProjects(s: Server, session: Option<SessionId>, ids: seq<ProjectId>): (r: Step<seq<Project>>)
    ensures r.next == s
    ensures Identify(s, session).Err? ==> r.reply == Err(Identify(s, session).error)
    ensures Identify(s, session).Ok? ==>
              (r.reply.Err? <==> exists id :: id in ids && !Tenancy.Visible(s.projects, Identify(s, session).value.profile, id))
    ensures Identify(s, session).Ok? && r.reply.Err? ==>
              && r.reply.error.Forbidden?
              && forall id :: id in r.reply.error.deniedIds <==>
                   id in ids && !Tenancy.Visible(s.projects, Identify(s, session).value.profile, id)
    ensures r.reply.Ok? ==> |r.reply.value| == |ids|
    ensures r.reply.Ok? ==> forall i :: 0 <= i < |ids| ==> ids[i] in s.projects && r.reply.value[i] == s.projects[ids[i]]
    ensures Identify(s, session).Ok? && r.reply.Err? ==>
              r.reply.error == Forbidden(Tenancy.DeniedIds(s.projects, Identify(s, session).value.profile, ids))
  {
    match Identify(s, session)
    case Err(f) => Step(s, Err(f))
    case Ok(actor) =>
      match Tenancy.Export(s.projects, actor.profile, ids)
      case Err(denied) => Step(s, Err(Forbidden(denied)))
      case Ok(ps) => Step(s, Ok(ps))
  }

  /** Download of a supplier-interaction file, scoped to the file's company
      for every authenticated caller. */
  function DownloadFile(s: Server, session: Option<SessionId>, id: FileId): (r: Step<Supplier.InteractionFile>)
    ensures r.next == s
    ensures r.reply.Ok? <==> Identify(s, session).Ok? && id in s.files &&
                             Tenancy.Authorized(Identify(s, session).value.profile, s.files[id].company, Tenancy.Read)
    ensures r.reply.Ok? ==> r.reply.value == s.files[id]
    ensures Identify(s, session).Ok? && id in s.files ==>
              var p := Identify(s, session).value.profile;
              p.role != Superadmin && s.files[id].company != p.company ==> r.reply == Err(Forbidden([]))
  {
    match Identify(s, session)
    case Err(f) => Step(s, Err(f))
    case Ok(actor) =>
      if id !in s.files then Step(s, Err(NotFound))
      else if !Tenancy.Authorized(actor.profile, s.files[id].company, Tenancy.Read) then Step(s, Err(Forbidden([])))
      else Step(s, Ok(s.files[id]))
  }

  /** Supplier draft save, authenticated by the token alone. */
  function SaveDraftAt(s: Server, token: Supplier.Token, lines: seq<Supplier.QuoteLine>): (r: Step<()>)
    ensures r.reply.Err? ==> r.next == s
    ensures token !in s.accesses ==> r.reply == Err(NotFound)
    ensures token in s.accesses ==> (r.reply.Ok? <==> Supplier.Open(s.accesses[token].status))
    ensures r.reply.Err? && token in s.accesses ==> r.reply.error == WorkflowClosed
    ensures r.reply.Ok? ==> r.next == s.(accesses := s.accesses[token := Supplier.SaveDraft(s.accesses[token], lines).value])
  {
    if token !in s.accesses then Step(s, Err(NotFound))
    else
      match Supplier.SaveDraft(s.accesses[token], lines)
      case Err(_) => Step(s, Err(WorkflowClosed))
      case Ok(a) => Step(s.(accesses := s.accesses[token := a]), Ok(()))
  }

  /** Supplier submission, authenticated by the token alone. */
  function SubmitAt(s: Server, token: Supplier.Token, lines: seq<Supplier.QuoteLine>, now: nat): (r: Step<()>)
    ensures r.reply.Err? ==> r.next == s
    ensures token !in s.accesses ==> r.reply == Err(NotFound)
    ensures token in s.accesses ==> (r.reply.Ok? <==> Supplier.Open(s.accesses[token].status))
    ensures r.reply.Err? && token in s.accesses ==> r.reply.error == WorkflowClosed
    ensures r.reply.Ok? ==> r.next == s.(accesses := s.accesses[token := Supplier.Submit(s.accesses[token], lines, now).value])
  {
    if token !in s.accesses then Step(s, Err(NotFound))
    else
      match Supplier.Submit(s.accesses[token], lines, now)
      case Err(_) => Step(s, Err(WorkflowClosed))
      case Ok(a) => Step(s.(accesses := s.accesses[token := a]), Ok(()))
  }

  /** The project after an approved quote is copied into it: items quoted,
      version advanced as for any other write. */
  function WithQuote(p: Project, a: Supplier.Access): (p': Project)
    ensures p'.id == p.id && p'.company == p.company && p'.name == p.name
    ensures p'.items == Supplier.Propagate(p.items, a.supplierName, a.submission.lines)
    ensures p'.version > p.version
  {
    p.(items := Supplier.Propagate(p.items, a.supplierName, a.submission.lines), version := p.version + 1)
  }

  /** Approval of a submitted quote, propagated into the owning project. */
  function ApproveAt(s: Server, token: Supplier.Token): (r: Step<bool>)
    ensures r.reply.Err? ==> r.next == s
    ensures token !in s.accesses ==> r.reply == Err(NotFound)
    ensures token in s.accesses ==> (r.reply.Ok? <==> s.accesses[token].status == Supplier.Submitted)
    ensures r.reply.Ok? ==> r.reply.value
    ensures r.reply.Ok? ==> r.next.accesses == s.accesses[token := s.accesses[token].(status := Supplier.Approved)]
    ensures r.reply.Ok? ==>
              var a := s.accesses[token];
              if a.project.Some? && a.project.value in s.projects
              then r.next.projects == s.projects[a.project.value := WithQuote(s.projects[a.project.value], a)]
              else r.next.projects == s.projects
    ensures r.reply.Ok? ==> r.next.(projects := s.projects, accesses := s.accesses) == s
  {
    if token !in s.accesses then Step(s, Err(NotFound))
    else
      var a := s.accesses[token];
      match Supplier.Approve(a)
      case Err(_) => Step(s, Err(WorkflowClosed))
      case Ok(a') =>
        var projects :=
          if a.project.Some? && a.project.value in s.projects
          then s.projects[a.project.value := WithQuote(s.projects[a.project.value], a)]
          else s.projects;
        Step(s.(accesses := s.accesses[token := a'], projects := projects), Ok(true))
  }

  /** Reopen request: succeeds for every known token, whatever its status
      and however empty its submission. */
  function RequestReopenAt(s: Server, token: Supplier.Token): (r: Step<()>)
    ensures token !in s.accesses <==> r.reply == Err(NotFound)
    ensures r.reply.Err? ==> r.next == s
    ensures token in s.accesses ==> r.reply.Ok? && token in r.next.accesses
    ensures token in s.accesses ==> r.next.accesses[token].submission.reopenRequested
    ensures token in s.accesses ==> r.next.accesses[token].status == s.accesses[token].status
    ensures token in s.accesses ==> r.next.accesses[token] == Supplier.RequestReopen(s.accesses[token])
    ensures r.reply.Ok? ==> r.next.(accesses := s.accesses) == s
    ensures forall t :: t != token && t in s.accesses ==> t in r.next.accesses && r.next.accesses[t] == s.accesses[t]
  {
    if token !in s.accesses then Step(s, Err(NotFound))
    else Step(s.(accesses := s.accesses[token := Supplier.RequestReopen(s.accesses[token])]), Ok(()))
  }

  /** Two writers read the same base version: once the first write commits,
      the second fails whatever its session or time, the stored project stays
      the first write's, and a second write by the same caller no earlier is
      refused precisely as a version conflict carrying the canonical project
      and its current stamp. */
  lemma {:induction false} StalePutRefused(s: Server, session: Option<SessionId>, e1: Versioning.Edit, now: nat,
                                           session2: Option<SessionId>, e2: Versioning.Edit, now2: nat)
    requires Put(s, session, e1, now).reply.Ok?
    requires e2.project == e1.project && e2.baseVersion == e1.baseVersion
    ensures var s1 := Put(s, session, e1, now).next;
            var r2 := Put(s1, session2, e2, now2);
            && r2.reply.Err? && r2.next == s1
            && s1.projects[e1.project].name == e1.name && s1.projects[e1.project].items == e1.items
    ensures var r1 := Put(s, session, e1, now);
            session2 == session && now <= now2 ==>
              Put(r1.next, session2, e2, now2).reply == Err(VersionConflict(e1.project, r1.reply.value, r1.reply.value.version))
  {
    var r1 := Put(s, session, e1, now);
    var s1 := r1.next;
    var p := r1.reply.value;
    assert Versioning.Current(s.projects[e1.project], e1.baseVersion);
    assert !Versioning.Current(p, e2.baseVersion);
    assert s1.projects[e1.project] == p;
    if session2 == session && now <= now2 {
      var actor := Identify(s, session).value;
      assert Identify(s1, session) == Ok(actor);
      if Locks.BlocksWrite(s1.locks, e1.project, actor.user, now2) {
        Locks.ExpiryOnlyFrees(s.locks, e1.project, actor.user, now, now2);
      }
    }
  }

  /** A batch of one edit behaves exactly as the single-project update. */
  lemma BulkOfOneIsPut(s: Server, session: Option<SessionId>, e: Versioning.Edit, now: nat)
    ensures Bulk(s, session, [e], now).next == Put(s, session, e, now).next
    ensures Bulk(s, session, [e], now).reply.Err? <==> Put(s, session, e, now).reply.Err?
    ensures Bulk(s, session, [e], now).reply.Err? ==> Bulk(s, session, [e], now).reply.error == Put(s, session, e, now).reply.error
  {
    if Identify(s, session).Ok? {
      var actor := Identify(s, session).value;
      var c := CheckEdit(s.projects, s.locks, actor, e, now);
      if c.Ok? {
        assert [e][1..] == [];
        assert ApplyAll(s.projects, s.locks, actor, [e], now) == Ok(s.projects[e.project := c.value]);
      }
    }
  }

  /** The bulk form of the stale-write rule: after one accepted single-edit
      batch, a second batch presenting the same base version is refused and
      the persisted project is still the first batch's. */
  lemma StaleBulkRefused(s: Server, session: Option<SessionId>, e1: Versioning.Edit, now: nat,
                         session2: Option<SessionId>, e2: Versioning.Edit, now2: nat)
    requires Bulk(s, session, [e1], now).reply.Ok?
    requires e2.project == e1.project && e2.baseVersion == e1.baseVersion
    ensures var s1 := Bulk(s, session, [e1], now).next;
            && Bulk(s1, session2, [e2], now2).reply.Err?
            && Bulk(s1, session2, [e2], now2).next == s1
            && s1.projects[e1.project].name == e1.name
    ensures var s1 := Bulk(s, session, [e1], now).next;
            session2 == session && now <= now2 ==> Bulk(s1, session2, [e2], now2).reply.error.VersionConflict?
  {
    BulkOfOneIsPut(s, session, e1, now);
    var s1 := Bulk(s, session, [e1], now).next;
    StalePutRefused(s, session, e1, now, session2, e2, now2);
    BulkOfOneIsPut(s1, session2, e2, now2);
  }

  /** A live lock another user took on any key tied to a project blocks an
      authorized write to that project, single or bulk, with a lock conflict
      that carries the canonical project; the write changes nothing. */
  lemma {:induction false} ForeignLockBlocksWrites(s: Server, holder: Option<SessionId>, key: Locks.ResourceKey, project: ProjectId,
                                                   context: string, now: nat, ttl: nat,
                                                   writer: Option<SessionId>, edits: seq<Versioning.Edit>, later: nat)
    requires AcquireLock(s, holder, key, Some(project), context, now, ttl).reply.Ok?
    requires Identify(s, writer).Ok? && Identify(s, writer).value.user != Identify(s, holder).value.user
    requires project in s.projects && Tenancy.Authorized(Identify(s, writer).value.profile, s.projects[project].company, Tenancy.Write)
    requires |edits| > 0 && edits[0].project == project
    requires later < now + ttl
    ensures var s1 := AcquireLock(s, holder, key, Some(project), context, now, ttl).next;
            Bulk(s1, writer, edits, later) == Step(s1, Err(LockConflict(project, s.projects[project])))
    ensures var s1 := AcquireLock(s, holder, key, Some(project), context, now, ttl).next;
            Put(s1, writer, edits[0], later) == Step(s1, Err(LockConflict(project, s.projects[project])))
  {
    var s1 := AcquireLock(s, holder, key, Some(project), context, now, ttl).next;
    var a := Identify(s, holder).value;
    var w := Identify(s, writer).value;
    Locks.AcquiredLockBlocksOthers(s.locks, key, a.user, project, context, now, ttl, w.user, later);
    assert Identify(s1, writer) == Ok(w);
    assert CheckEdit(s1.projects, s1.locks, w, edits[0], later) == Err(LockConflict(project, s.projects[project]));
  }

  /** A batch is refused as a whole, and changes nothing, when any of its
      edits, in any position, is out of the caller's scope or blocked by
      another user's live lock. */
  lemma BulkRefusesUnadmittedEdit(s: Server, session: Option<SessionId>, edits: seq<Versioning.Edit>, now: nat, i: nat)
    requires Identify(s, session).Ok? && i < |edits|
    requires !Admitted(s.projects, s.locks, Identify(s, session).value, edits[i], now)
    ensures Bulk(s, session, edits, now).reply.Err?
    ensures Bulk(s, session, edits, now).next == s
  {
  }

  /** Holding the edit lock never stands in one's own way: a write that
      would have been accepted is still accepted after the writer acquires a
      lock, whatever its key. */
  lemma {:induction false} OwnLockKeepsWriteOpen(s: Server, session: Option<SessionId>, key: Locks.ResourceKey,
                                                 project: Option<ProjectId>, context: string, now: nat, ttl: nat,
                                                 e: Versioning.Edit, later: nat)
    requires AcquireLock(s, session, key, project, context, now, ttl).reply.Ok?
    requires Put(s, session, e, later).reply.Ok?
    ensures Put(AcquireLock(s, session, key, project, context, now, ttl).next, session, e, later).reply.Ok?
  {
    var s1 := AcquireLock(s, session, key, project, context, now, ttl).next;
    var a := Identify(s, session).value;
    assert Identify(s1, session) == Ok(a);
    Locks.AcquireNeverBlocksHolder(s.locks, key, a.user, project, context, now, ttl, e.project, later);
  }

  /** After a logout, every request presenting that session is refused as
      unauthenticated, before any payload is looked at. */
  lemma LogoutRevokesSession(s: Server, session: SessionId, e: Versioning.Edit, edits: seq<Versioning.Edit>,
                             key: Locks.ResourceKey, project: Option<ProjectId>, context: string, now: nat, ttl: nat)
    ensures Put(Logout(s, session), Some(session), e, now).reply == Err(AuthenticationRequired)
    ensures Bulk(Logout(s, session), Some(session), edits, now).reply == Err(AuthenticationRequired)
    ensures AcquireLock(Logout(s, session), Some(session), key, project, context, now, ttl).reply == Err(AuthenticationRequired)
    ensures ForceUnlock(Logout(s, session), Some(session), key).reply == Err(AuthenticationRequired)
  {
  }

  /** An administrator can force open a lock on a project of their own
      company, whoever took it (a colleague or the administrator), and the log
      gains exactly the force-unlock entry naming the key and the
      administrator. */
  lemma {:induction false} AdminForceUnlocksOwnCompanyLock(s: Server, holder: Option<SessionId>, key: Locks.ResourceKey,
                                                           project: ProjectId, context: string, now: nat, ttl: nat,
                                                           admin: Option<SessionId>)
    requires AcquireLock(s, holder, key, Some(project), context, now, ttl).reply.Ok?
    requires Identify(s, admin).Ok?
    requires Identify(s, admin).value.profile.role == Admin && Identify(s, admin).value.profile.isActive
    requires Identify(s, admin).value.profile.company.Some?
    requires project in s.projects && s.projects[project].company == Identify(s, admin).value.profile.company
    ensures var s1 := AcquireLock(s, holder, key, Some(project), context, now, ttl).next;
            var r := ForceUnlock(s1, admin, key);
            && r.reply == Ok(true)
            && key !in r.next.locks
            && r.next.audit == s.audit + [Audit.Entry(ForceUnlockAction, LockEntity, key, Identify(s, admin).value.user)]
  {
    var s1 := AcquireLock(s, holder, key, Some(project), context, now, ttl).next;
    var a := Identify(s, admin).value;
    assert Identify(s1, admin) == Ok(a);
    assert key in s1.locks && LockOwner(s1, s1.locks[key]) == s.projects[project].company;
  }

  /** The supplier round trip: a submission on an open quote followed by its
      approval leaves the access approved with its submission time, and the
      owning project's items quoted from exactly the submitted lines, same
      length and order. */
  lemma {:induction false} SubmitThenApprove(s: Server, token: Supplier.Token, lines: seq<Supplier.QuoteLine>, now: nat)
    requires token in s.accesses && Supplier.Open(s.accesses[token].status)
    requires s.accesses[token].project.Some? && s.accesses[token].project.value in s.projects
    ensures var s1 := SubmitAt(s, token, lines, now).next;
            var r := ApproveAt(s1, token);
            var a := s.accesses[token];
            var p := s.projects[a.project.value];
            var p' := r.next.projects[a.project.value];
            && r.reply == Ok(true)
            && r.next.accesses[token].status == Supplier.Approved
            && r.next.accesses[token].submittedAt == Some(now)
            && p'.items == Supplier.Propagate(p.items, a.supplierName, lines)
            && |p'.items| == |p.items|
            && p'.version > p.version
  {
    var s1 := SubmitAt(s, token, lines, now).next;
    assert s1.accesses[token].submission.lines == lines;
    assert s1.accesses[token].supplierName == s.accesses[token].supplierName;
    assert s1.accesses[token].project == s.accesses[token].project;
    assert s1.projects == s.projects;
  }

  /** Approval happens once: approving an approved quote is refused and
      changes nothing, so the price is never copied twice. */
  lemma ApproveOnce(s: Server, token: Supplier.Token)
    requires ApproveAt(s, token).reply.Ok?
    ensures var s1 := ApproveAt(s, token).next;
            ApproveAt(s1, token) == Step(s1, Err(WorkflowClosed))
  {
  }
}

=== FILE: supplier.dfy ===
/** SupplierWorkflow: the life of a supplier's access token through draft,
    submission, approval and reopen requests, and the propagation of an
    approved quote into the owning project's items. */
module Supplier {
  import opened Domain

  /** The opaque, unguessable token that is both the access's id and the
      supplier's credential. */
  type Token = string

  datatype Status = Sent | Viewed | Submitted | Approved

  /** One quoted item of a supplier's submission. Prices stay the strings the
      supplier typed. */
  datatype QuoteLine = QuoteLine(itemId: ItemId, price: string)

  /** The access's `submission_data`: the quoted lines plus the `is_draft`
      and `reopen_requested` markers. */
  datatype Submission = Submission(lines: seq<QuoteLine>, isDraft: bool, reopenRequested: bool)

  datatype Access = Access(
    token: Token,
    company: Option<CompanyId>,
    project: Option<ProjectId>,
    supplierName: string,
    status: Status,
    round: nat,
    submission: Submission,
    submittedAt: Option<nat>)

  /** Historical record of one quote round of an access. */
  datatype Round = Round(access: Option<Token>, company: Option<CompanyId>, round: nat)

  /** A file exchanged with a supplier during a round. */
  datatype InteractionFile = InteractionFile(access: Option<Token>, company: Option<CompanyId>, name: string)

  /** The defined refusal of an action the current status does not allow. */
  datatype Refusal = Closed

  /** The supplier may still edit the quote. */
  predicate Open(s: Status)
  {
    s == Sent || s == Viewed
  }

  /** Draft save: first touch moves `sent` to `viewed`; the lines are stored
      with the draft marker. Submitted and approved quotes are closed. */
  function SaveDraft(a: Access, lines: seq<QuoteLine>): (r: Result<Access, Refusal>)
    ensures r.Ok? <==> Open(a.status)
    ensures r.Ok? ==> r.value.status == Viewed
    ensures r.Ok? ==> r.value.submission.isDraft && r.value.submission.lines == lines
    ensures r.Ok? ==> r.value.(status := a.status, submission := a.submission) == a
  {
    if Open(a.status) then Ok(a.(status := Viewed, submission := Submission(lines, true, false)))
    else Err(Closed)
  }

  /** Final submission: stamps the submission time. A closed quote is refused
      rather than faulting. */
  function Submit(a: Access, lines: seq<QuoteLine>, now: nat): (r: Result<Access, Refusal>)
    ensures r.Ok? <==> Open(a.status)
    ensures r.Ok? ==> r.value.status == Submitted && r.value.submittedAt == Some(now)
    ensures r.Ok? ==> r.value.submission.lines == lines && !r.value.submission.isDraft
    ensures r.Ok? ==> r.value.(status := a.status, submission := a.submission, submittedAt := a.submittedAt) == a
  {
    if Open(a.status) then
      Ok(a.(status := Submitted, submission := Submission(lines, false, false), submittedAt := Some(now)))
    else Err(Closed)
  }

  /** Approval closes a submitted quote; re-approval and approval of an
      unsubmitted quote are refused. */
  function Approve(a: Access): (r: Result<Access, Refusal>)
    ensures r.Ok? <==> a.status == Submitted
    ensures r.Ok? ==> r.value == a.(status := Approved)
  {
    if a.status == Submitted then Ok(a.(status := Approved)) else Err(Closed)
  }

  /** A reopen request never fails, whatever the status or the submission
      holds: it only records the request for an administrator. */
  function RequestReopen(a: Access): (a': Access)
    ensures a'.submission.reopenRequested
    ensures a'.status == a.status && a'.submission.lines == a.submission.lines
    ensures a'.(submission := a.submission) == a
  {
    a.(submission := a.submission.(reopenRequested := true))
  }

  /** The price of the first submitted line for `id`, if any. */
  function PriceFor(lines: seq<QuoteLine>, id: ItemId): (r: Option<string>)
    ensures r.None? <==> forall i :: 0 <= i < |lines| ==> lines[i].itemId != id
    ensures r.Some? ==> exists i :: 0 <= i < |lines| && lines[i].itemId == id && lines[i].price == r.value
                                    && forall j :: 0 <= j < i ==> lines[j].itemId != id
  {
    if |lines| == 0 then None
    else if lines[0].itemId == id then Some(lines[0].price)
    else
      var r := PriceFor(lines[1..], id);
      if r.Some? then
        var i :| 0 <= i < |lines[1..]| && lines[1..][i].itemId == id && lines[1..][i].price == r.value
                 && forall j :: 0 <= j < i ==> lines[1..][j].itemId != id;
        assert lines[i + 1] == lines[1..][i];
        r
      else r
  }

  const SupplierField := "supplier"
  const PriceField := "price_1"
  const StatusField := "status"
  const QuotedMarker := "Quoted"

  /** One project item after a quote for it is approved. */
  function Quoted(it: Item, supplier: string, price: string): (q: Item)
    ensures q.id == it.id
    ensures SupplierField in q.fields && q.fields[SupplierField] == supplier
    ensures PriceField in q.fields && q.fields[PriceField] == price
    ensures StatusField in q.fields && q.fields[StatusField] == QuotedMarker
    ensures q.fields.Keys == it.fields.Keys + {SupplierField, PriceField, StatusField}
    ensures forall k :: k in it.fields && k != SupplierField && k != PriceField && k != StatusField ==> q.fields[k] == it.fields[k]
  {
    it.(fields := it.fields[SupplierField := supplier][PriceField := price][StatusField := QuotedMarker])
  }

  /** Approval propagation: every project item quoted in the submission
      takes the supplier, the quoted price and the `Quoted` status; every
      other item is untouched, and the list keeps its length and order. */
  function Propagate(items: seq<Item>, supplier: string, lines: seq<QuoteLine>): (r: seq<Item>)
    ensures |r| == |items|
    ensures forall i :: 0 <= i < |items| ==> r[i].id == items[i].id
    ensures forall i :: 0 <= i < |items| && PriceFor(lines, items[i].id).None? ==> r[i] == items[i]
    ensures forall i :: 0 <= i < |items| && PriceFor(lines, items[i].id).Some? ==>
              r[i] == Quoted(items[i], supplier, PriceFor(lines, items[i].id).value)
  {
    if |items| == 0 then []
    else
      var head := match PriceFor(lines, items[0].id)
                  case Some(price) => Quoted(items[0], supplier, price)
                  case None => items[0];
      [head] + Propagate(items[1..], supplier, lines)
  }
}

=== FILE: tenancy.dfy ===
/** TenantScope: the static role/capability table and the company-match rule
    that every access to a tenant-owned entity goes through. */
module Tenancy {
  import opened Domain

  datatype Capability = Read | Write | Administer

  /** Which roles may exercise which capability, independent of company. */
  predicate Permits(role: Role, cap: Capability)
  {
    match cap
    case Read => true
    case Write => role != Viewer
    case Administer => role == Admin || role == Superadmin
  }

  /** A superadmin spans all companies; everyone else sees only rows owned by
      their own company. A row with no owner is visible to superadmins only. */
  predicate InScope(p: Profile, owner: Option<CompanyId>)
  {
    p.role == Superadmin || (p.company.Some? && owner == p.company)
  }

  predicate Authorized(p: Profile, owner: Option<CompanyId>, cap: Capability)
  {
    p.isActive && Permits(p.role, cap) && InScope(p, owner)
  }

  /** A requested project id the caller may read: it exists and is in scope. */
  predicate Visible(projects: map<ProjectId, Project>, p: Profile, id: ProjectId)
  {
    id in projects && Authorized(p, projects[id].company, Read)
  }

  /** The requested ids the caller may not read, in request order. */
  function DeniedIds(projects: map<ProjectId, Project>, p: Profile, ids: seq<ProjectId>): (denied: seq<ProjectId>)
    ensures forall id :: id in denied <==> id in ids && !Visible(projects, p, id)
    ensures |denied| <= |ids|
  {
    if |ids| == 0 then []
    else
      var rest := DeniedIds(projects, p, ids[1..]);
      assert forall id :: id in ids <==> id == ids[0] || id in ids[1..];
      if Visible(projects, p, ids[0]) then rest else [ids[0]] + rest
  }

  /** Export of a set of projects: refused as a whole, naming exactly the
      out-of-scope ids, or granted with the requested projects in order. */
  function Export(projects: map<ProjectId, Project>, p: Profile, ids: seq<ProjectId>): (r: Result<seq<Project>, seq<ProjectId>>)
    ensures r.Err? <==> exists id :: id in ids && !Visible(projects, p, id)
    ensures r.Err? ==> forall id :: id in r.error <==> id in ids && !Visible(projects, p, id)
    ensures r.Err? ==> r.error == DeniedIds(projects, p, ids)
    ensures r.Ok? ==> |r.value| == |ids|
    ensures r.Ok? ==> forall i :: 0 <= i < |ids| ==> ids[i] in projects && r.value[i] == projects[ids[i]]
  {
    var denied := DeniedIds(projects, p, ids);
    if |denied| > 0 then
      assert denied[0] in denied;
      Err(denied)
    else
      assert forall i :: 0 <= i < |ids| ==> ids[i] in ids;
      Ok(seq(|ids|, i requires 0 <= i < |ids| => projects[ids[i]]))
  }

  /** When every requested id is out of scope, the denial list is the
      request itself, order and repetitions included. */
  lemma {:induction false} AllForeignDeniedVerbatim(projects: map<ProjectId, Project>, p: Profile, ids: seq<ProjectId>)
    requires forall i :: 0 <= i < |ids| ==> !Visible(projects, p, ids[i])
    ensures DeniedIds(projects, p, ids) == ids
  {
    if |ids| > 0 {
      AllForeignDeniedVerbatim(projects, p, ids[1..]);
      assert [ids[0]] + ids[1..] == ids;
    }
  }

  /** An admin of one company asking to export a project of another company
      is refused, and the refusal names that project. */
  lemma ForeignExportRefused(projects: map<ProjectId, Project>, p: Profile, id: ProjectId)
    requires p.role != Superadmin
    requires id in projects && projects[id].company != p.company
    ensures Export(projects, p, [id]) == Err([id])
  {
    AllForeignDeniedVerbatim(projects, p, [id]);
  }
}

=== FILE: versioning.dfy ===
/** VersionGuard: optimistic concurrency on a project's version stamp. */
module Versioning {
  import opened Domain

  /** A proposed replacement of a project's name and items, with the version
      stamp the writer last read (absent when the client sent none). */
  datatype Edit = Edit(project: ProjectId, name: string, items: seq<Item>, baseVersion: Option<Version>)

  /** The writer's base is the project's current stamp. A missing base never
      matches. */
  predicate Current(p: Project, base: Option<Version>)
  {
    base == Some(p.version)
  }

  /** Persist an accepted edit: the name and items are replaced, identity and
      owner are kept, and the stamp moves strictly forward, which consumes
      the base version the edit presented. */
  function Apply(p: Project, e: Edit): (p': Project)
    ensures p'.id == p.id && p'.company == p.company
    ensures p'.name == e.name && p'.items == e.items
    ensures p'.version > p.version
    ensures Current(p, e.baseVersion) ==> !Current(p', e.baseVersion)
  {
    p.(name := e.name, items := e.items, version := p.version + 1)
  }
}
